=== FILE: README.md ===
# QUnit build configuration, modelled in Dafny

QUnit's Grunt configuration (`Gruntfile.js`) holds a small amount of logic:

- the `process` hook that every `copy` target applies, which fills in `@VERSION` and `@DATE`;
- the legacy-runtime gate: `oldNode`, `runIfNewNode` and the `print_old_node_message` stub;
- the `qunit.coverage` handler, which turns a test page's path into a report file;
- the `build`, `test`, `coverage` and `default` task lists, run by Grunt's fail-fast runner;
- the `copy` targets that swap the instrumented bundle in for the tests and back out afterwards.

The model states this logic in Dafny and proves what the configuration relies on.

Modules:

| file | module | what it holds |
|---|---|---|
| `wrappers.dfy` | `Wrappers` | `Option` |
| `text.dfy` | `Text` | JavaScript string operations: `replace` with a global regex on a literal token (`ReplaceAll`), `replace` with a string (`ReplaceFirst`), `split` (`SplitOn`), `join` (`Join`), `split(...).pop()` (`LastPiece`) |
| `template.dfy` | `Template` | `process`, with the `/:\d+\.\d+Z$/` cut of the clock reading (`MinutePrecision`) |
| `gate.dfy` | `Gate` | `oldNode`, `runIfNewNode`, the stub, and Grunt's reading of `name:arg1:arg2` into a `Task` |
| `report.dfy` | `CoverageReport` | the `qunit.coverage` handler over a file system held as `map<string, string>` |
| `runner.dfy` | `Runner` | fail-fast sequencing of steps, generic in the task and state types |
| `pipeline.dfy` | `Pipeline` | the copy targets, the step each task performs, the alias lists and their expansion |
| `swap.dfy` | `ArtifactSwap` | what the `coverage` run does to `dist/qunit.js` and `dist/qunit.tmp.js` |

The outside world is one `World` value. It holds:

- the runtime version and the package version;
- a clock `nat -> string`: the reading `new Date()` gives during the n-th step of a run;
- the bundle rollup builds and what the instrumenter makes of a bundle;
- the coverage events the qunit run fires;
- what `storeCoverage` and `makeReport` write;
- whether each opaque plugin step passes.

Every `copy` target runs its file through `process`, including the three copies of the swap. A new clock reading is taken at each copy. So the built bundle only comes back unchanged because `process` leaves an already processed bundle alone.

## Model

| member | source | states |
|---|---|---|
| `Gate.IsOldNode` | Gruntfile.js:10 | the `/^v0\./` test on the runtime version; `Gate.OldNodeIsMajorZero` characterises it |
| `Gate.OldNodeIsMajorZero` | Gruntfile.js:10 | the runtime counts as old exactly when its version string is `v0.` followed by anything |
| `Pipeline.LintGatedOnOldNode` | Gruntfile.js:15-18 | on an old runtime `test` contains no `eslint` task, its first task is the stub invoked with `eslint`, and a bare `eslint` step fails because the plugin is not loaded |
| `Gate.RunIfNewNode` | Gruntfile.js:21-23 | `runIfNewNode`: the task prefixed with the stub and a colon on an old runtime, the task itself otherwise; `Gate.GateRoutesToStub` and `Gate.GatedReadsAsGrunt` characterise it |
| `Gate.GateRoutesToStub` | Gruntfile.js:21-23 | on an old runtime the gated string reads as the stub task, with arguments that join back to the gated task; on a current one the string is the task itself |
| `Gate.GatedReadsAsGrunt` | Gruntfile.js:21-23 | for a colon-free task, Grunt's reading of its gated invocation is the stub carrying the task's name and arguments on an old runtime, and the task itself otherwise |
| `Pipeline.LintEntryReads` | Gruntfile.js:221 | the registry's `runIfNewNode( "eslint" )` entry reads as the gated lint task on either runtime |
| `Gate.Parse` | Gruntfile.js:25-26 | Grunt's colon split of an invocation string: name and arguments hold no colon and join back with `:` to the string |
| `Gate.ParseRender` | Gruntfile.js:25-26 | a task whose name and arguments hold no colon is read back unchanged from its invocation string |
| `Gate.RenderParse` | Gruntfile.js:25-26 | the other direction of `Gate.ParseRender`: every invocation string is the rendering of its reading, and that reading holds no colon in its name or arguments |
| `Gate.ParseTarget` | Gruntfile.js:220 | `name:target` reads as task `name` with the single argument `target` |
| `Gate.SkipMessage` | Gruntfile.js:26-27 | the stub's log line, with its arguments joined back with `:`; `Gate.StubNamesGatedTask` shows it names exactly the gated task |
| `Gate.StubNamesGatedTask` | Gruntfile.js:25-28 | the stub runs in place of a gated task, and its skip message names exactly that task, colons included |
| `Text.JoinSplit` | Gruntfile.js:26 | joining the pieces of a split with the same separator gives back the string |
| `Text.SplitJoin` | Gruntfile.js:26 | splitting a join of separator-free pieces on a one-character separator gives back the pieces |
| `Text.ReplaceAllRemoves` | Gruntfile.js:34 | a global replace whose replacement cannot complete or extend the token leaves no occurrence of the token |
| `Text.ReplaceAll` | Gruntfile.js:34-37 | `replace` with a global pattern for a literal token: text without the token comes back unchanged; `Text.ReplaceAllIsSplitJoin` gives an independent definition |
| `Text.ReplaceAllIsSplitJoin` | Gruntfile.js:34-37 | a global replace equals splitting at the token and joining the pieces with the replacement, so every occurrence is replaced and the text between occurrences is kept |
| `Text.ReplaceAllAfterStem` | Gruntfile.js:34-37 | when the token's first character does not recur in it, the text before its first occurrence is kept, that occurrence becomes the replacement, and the replace goes on with the rest |
| `Text.ReplaceAllKeepsAbsent` | Gruntfile.js:34-37 | a global replace of one token introduces no occurrence of another token the input lacked, when the replacement cannot form that token |
| `Template.VersionFreeOfTokenIsNotEnough` | Gruntfile.js:34 | a version free of `@VERSION` can still leave one in the output: `@@VERSION` with version `VERSION` |
| `Template.MinutePrecision` | Gruntfile.js:37 | the `/:\d+\.\d+Z$/` cut: the reading is unchanged, or a shorter prefix of it followed by `Z`; `Template.MinutePrecisionOfIso` gives the exact result on an ISO reading |
| `Template.MinutePrecisionOfIso` | Gruntfile.js:36-37 | on a reading `YYYY-MM-DDThh:mm:ss.sssZ` the cut gives the first 16 characters followed by `Z`, 17 characters of the shape `YYYY-MM-DDThh:mmZ` |
| `Template.ProcessEmbedsMinuteStamp` | Gruntfile.js:34-37 | in any placeholder-free text around it, `@DATE` becomes exactly the minute-precision stamp of the clock reading, the text on either side is kept as it was, and the version does not matter |
| `Template.Process` | Gruntfile.js:30-38 | text without either placeholder comes back unchanged |
| `Template.ProcessLeavesNoPlaceholder` | Gruntfile.js:30-38 | with a version that cannot re-create `@VERSION` and an ISO clock reading, no `@VERSION` and no `@DATE` survives |
| `Template.ProcessIdempotent` | Gruntfile.js:30-38 | under the same conditions, processing twice gives the same as processing once, whatever the second clock reading |
| `Template.SecondPassSeesVersion` | Gruntfile.js:31-37 | the replacements are two passes, so a version holding `@DATE` has it replaced by the date |
| `Text.LastPiece` | Gruntfile.js:212 | `split( sep ).pop()`; `Text.LastPieceOfSuffix` and `CoverageReport.TestBaseFollowsLastRoot` characterise it |
| `Text.LastPieceOfSuffix` | Gruntfile.js:212 | when the second part of a text holds the separator and no separator straddles the seam, the last piece of the whole is the last piece of the second part |
| `Text.ReplaceFirst` | Gruntfile.js:212 | `replace` with a string pattern: text without the token comes back unchanged; `Text.ReplaceFirstAfter` gives its result on text holding a token whose first character does not recur in it, such as `.html` |
| `Text.ReplaceFirstAfter` | Gruntfile.js:212 | when the token's first character does not recur in it, only the first occurrence is replaced, and the text before and after it is kept as it was |
| `CoverageReport.TestName` | Gruntfile.js:212 | the test name of a page path; `CoverageReport.TestBaseFollowsLastRoot`, `CoverageReport.TestNameDropsFirstHtml` and `CoverageReport.PageReportPath` characterise it |
| `CoverageReport.TestBaseFollowsLastRoot` | Gruntfile.js:212 | the base after `split( "/test/" ).pop()` holds no `/test/`; the path is something, then `/test/`, then the base (or is the base when it has no `/test/`) |
| `CoverageReport.TestNameDropsFirstHtml` | Gruntfile.js:212 | `.replace( ".html", "" )` removes the first `.html` of the base, wherever it stands |
| `CoverageReport.PageReportPath` | Gruntfile.js:211-213 | the page `<root>/test/<stem>.html` is named `stem` and reports to `build/report/phantom/<stem>.json` |
| `CoverageReport.ReportPath` | Gruntfile.js:213 | every report path lies under `build/report/phantom/` and ends in `.json` |
| `CoverageReport.ReportPathInjective` | Gruntfile.js:213 | distinct test names give distinct report paths |
| `CoverageReport.OnCoverage` | Gruntfile.js:211-217 | an event adds or overwrites its own report file with its payload and changes no other file |
| `CoverageReport.ApplyEvents` | Gruntfile.js:211-217 | a run of coverage events changes no file outside `build/report/phantom/`: none is added, removed or rewritten |
| `CoverageReport.EventsWriteOwnReports` | Gruntfile.js:211-217 | with distinct test names every payload ends up in its own file, the run adds exactly those files, and every other file is unchanged |
| `CoverageReport.EventOrderIrrelevant` | Gruntfile.js:211-217 | two runs with the same events and distinct test names leave the same files, whatever order the events arrive in |
| `CoverageReport.ReportCount` | Gruntfile.js:211-217 | starting without any of its report files, a run of N events with distinct test names leaves exactly N more files |
| `Pipeline.CopyTargetNamed` | Gruntfile.js:42-67 | the five `copy` targets and their source and destination files; `Pipeline.CopyStep` ties `copy:<target>` to them |
| `Pipeline.CopyStep` | Gruntfile.js:42-67 | the step for `copy:<target>` is the copy of that target's source to its destination |
| `Pipeline.Copy` | Gruntfile.js:42-67 | a copy succeeds exactly when its step passes; it puts the processed source in the destination, leaves a clean source unchanged and changes no other file; a missing source expands to no files, so nothing is written |
| `Pipeline.Step` | Gruntfile.js:42-74 | the stub changes nothing, an unregistered task fails, a task writes only where its target allows, and a failed step other than the qunit run changes nothing |
| `ArtifactSwap.PublishKeepsBundles` | Gruntfile.js:184-208 | `storeCoverage`, `makeReport` and `coveralls` never touch `dist/qunit.js` or `dist/qunit.tmp.js` |
| `Runner.Run` | Gruntfile.js:219-233 | Grunt's fail-fast run of a task list, one clock tick per task; `Runner.RunShape`, `Runner.RunStopsAtFailure` and `Runner.RunAppend` characterise it |
| `Runner.RunShape` | Gruntfile.js:219-233 | the tasks that ran are a prefix of the list; the run reports no failure exactly when all of them ran, and otherwise reports the task right after those that ran |
| `Runner.RunStopsAtFailure` | Gruntfile.js:219-233 | a failed run stopped at a step that failed: the tasks before it ran and passed, the step of the reported task failed, and the state is what that step left |
| `Runner.RunAppend` | Gruntfile.js:219-233 | running a concatenated list is running the first part and, if it succeeded, continuing with the second |
| `Runner.ThenThen` | Gruntfile.js:219-233 | continuing a run with two lists in turn is continuing with their concatenation |
| `Pipeline.Alias` | Gruntfile.js:220-233 | the four registered alias lists; `Pipeline.AliasRanks` shows each refers only to lower aliases |
| `Pipeline.AliasRanks` | Gruntfile.js:220-233 | every alias list refers only to tasks of lower rank, so expansion ends |
| `Pipeline.Expand` | Gruntfile.js:219-233 | expanding an invocation gives only tasks that are not aliases; `Pipeline.CoverageSequence` and `Pipeline.DefaultSequence` give the full lists |
| `Pipeline.BuildExpands` | Gruntfile.js:220 | `build` expands to `rollup:src`, `copy:src-js`, `copy:src-css` |
| `Pipeline.TestExpands` | Gruntfile.js:221 | `test` expands to gated lint, `search`, `test-on-node`, `qunit` |
| `Pipeline.CoverageSequence` | Gruntfile.js:222-232 | `coverage` expands to the build, the swap-in, the tests, the swap-out and the publishing tasks, in that order |
| `Pipeline.DefaultSequence` | Gruntfile.js:233 | `default` expands to the build followed by the tests |
| `Pipeline.AliasesReferenceDefinedTasks` | Gruntfile.js:219-233 | on either runtime every task that `default` and `coverage` expand to is registered |
| `ArtifactSwap.BuildStage` | Gruntfile.js:220 | `build` succeeds exactly when its three steps pass; it then leaves the processed bundle in `dist/`, and the processed stylesheet when `src/qunit.css` exists; without it `dist/qunit.css` is left as it was |
| `ArtifactSwap.SwapInStage` | Gruntfile.js:55-62 | the swap-in succeeds exactly when its three steps pass; it then parks the bundle in the tmp file and puts the processed instrumented bundle in its place; on failure the bundle is still in place |
| `ArtifactSwap.SwapOutStage` | Gruntfile.js:63-66 | the copy back succeeds exactly when it passes; it then restores the parked bundle, and on failure it changes nothing |
| `ArtifactSwap.CoverageInStages` | Gruntfile.js:222-232 | the coverage run is its five stages run in order, each continuing from where the last stopped |
| `ArtifactSwap.CoverageRestoresBundle` | Gruntfile.js:222-232 | a coverage run that completes leaves the built bundle in `dist/qunit.js`, and its copy in `dist/qunit.tmp.js` |
| `ArtifactSwap.TestsRunInstrumented` | Gruntfile.js:222-232 | throughout the tests `dist/qunit.js` holds the instrumented bundle, processed at the swap-in |
| `ArtifactSwap.TestFailureLeavesInstrumented` | Gruntfile.js:222-232 | when a test fails the run reports that test, stops before the swap-out, and leaves the instrumented bundle in `dist/qunit.js` with the built one in the tmp file |
| `ArtifactSwap.TestFailureSkipsRestore` | Gruntfile.js:222-232 | when a test fails, the tasks that ran are the whole build and swap-in followed by the tests before the failing one, in listed order; the run reports as failed the task right after the last one that ran, and the copy back is not among those that ran |
| `ArtifactSwap.GuardedRestores` | Gruntfile.js:222-232 | with the copy back in a `finally`, a run whose build succeeds ends with the built bundle in `dist/qunit.js`, failing tests or not, provided the copy back itself passes |
| `ArtifactSwap.GuardedAgreesOnSuccess` | Gruntfile.js:222-232 | when the original run completes, the guarded run produces exactly the same outcome |
| `ArtifactSwap.GuardedReportsFailure` | Gruntfile.js:222-232 | with the copy back in a `finally`, the run still fails exactly when the original one does, so a failing test still ends `grunt coverage` with a failure |
| `ArtifactSwap.GuardedSameFailure` | Gruntfile.js:222-232 | when the copy back itself passes, the guarded run reports the same failing task as the original, a failing test included |

## Behaviour worth knowing

- `process` fills in placeholders in two passes, `@VERSION` first and then `@DATE` (Gruntfile.js:34-37). A version containing `@DATE` therefore gets the date filled in (`Template.SecondPassSeesVersion`).
- The test name is the last piece of a non-overlapping split on `/test/`, with the first `.html` removed wherever it occurs (Gruntfile.js:212).
- `copy:tmp-to-dist` runs through `process` like every other copy target (Gruntfile.js:43). It gives back the built bundle because that bundle is already free of placeholders.
- `dist/qunit.tmp.js` stays in place after a completed run and still holds the bundle (`ArtifactSwap.CoverageRestoresBundle`).
- `coveralls` has `force: true` (Gruntfile.js:199-202), so its step never fails.
- A copy target whose source file is missing copies nothing and still succeeds, because the source pattern expands to no files (Gruntfile.js:44-66). A `build` without `src/qunit.css` succeeds and writes no `dist/qunit.css`.

## Left out

- The plugin tasks are opaque steps whose outcome and output come from `World`, because their code is not part of this model. These are rollup, eslint, `search`, `test-on-node`, the qunit/PhantomJS run, the instrumenter, `storeCoverage`, `makeReport` and the coveralls upload.
- `makeReport`'s merge of the per-test reports is not modelled. The report is whatever `World.lcov` gives for the file system.
- The real clock and file system are left out. The clock is `World.clock`, indexed by step; the file system is a `map` from paths to contents.
- Coverage payloads are held as their serialised JSON text; `writeJsonSync`'s serialisation is not modelled.
- `path.join` normalisation is not modelled. A report path is the plain concatenation `build/report/phantom/` + name + `.json`.
- JavaScript's `$` patterns in replacement strings are not interpreted. The version and date are inserted literally.
- Grunt runs all targets of a multi-task invoked without a target. That case is not modelled: every multi-task in the lists is given its target, or the model treats it as one opaque step.
- The `watch` task and the eslint, search and qunit option blocks (Gruntfile.js:75-174) are plugin configuration and are left out.
- `load-grunt-tasks` pattern matching is reduced to whether `eslint` is registered (`Pipeline.Defined`).
- The registry's lists are held as parsed `Task` values rather than strings. `Gate.ParseTarget` and `Pipeline.LintEntryReads` tie them to the strings written in the configuration.
- `Template.ProcessLeavesNoPlaceholder`: requires the version to be inert for `@VERSION`, not merely free of it. The weaker hypothesis is false (`Template.VersionFreeOfTokenIsNotEnough`).
- `Template.MinutePrecisionOfIso`: covers readings with four-digit years only. Extended-year readings such as `+275760-09-13T00:00:00.000Z` are not covered.
- `CoverageReport.PageReportPath`: stated for stems without a `.`. Other names follow from `CoverageReport.TestNameDropsFirstHtml`.
- `ArtifactSwap.CoverageRestoresBundle`: assumes the version is inert for `@VERSION` and every clock reading is an ISO timestamp. Without that, `process` may change the bundle on each copy.
- `Pipeline.Step`: the instrumenter is taken to behave like a copy when `dist/qunit.js` is missing: its file pattern expands to nothing, it writes nothing and its outcome is still `World.passes`. The plugin's own handling of an empty file list is not part of this model.
- `Gate.Parse`: a plain split at every colon. Grunt's own reading also honours the `\:` and `\\` escapes and takes the longest registered colon-prefix as the task name. The model does neither, so `Gate.StubNamesGatedTask` names the task exactly only for names without `\:`; Gruntfile.js gates no such name.
- `ArtifactSwap.GuardedRestores`: assumes the copy back itself passes. When it fails, the guarded run reports that failure instead.
- `ArtifactSwap.GuardedSameFailure`: assumes the copy back itself passes. When it fails after a failing test, the guarded run reports the copy back in place of the test, as a `finally` block that throws would; `ArtifactSwap.GuardedReportsFailure` shows the run still fails.

## Findings

| source | as written | input that shows it | evidently intended | confidence | as-written member | corrected member |
|---|---|---|---|---|---|---|
| Gruntfile.js:222-232 | `coverage` is a plain fail-fast list, so a failing test stops the run before `copy:tmp-to-dist` | a coverage run whose build and swap-in pass, whose `qunit` step fails, and whose instrumenter changes the bundle: `dist/qunit.js` is left holding the instrumented bundle | the built bundle is copied back whether or not the tests pass | not executed | `ArtifactSwap.TestFailureLeavesInstrumented` | `ArtifactSwap.GuardedRestores` and `ArtifactSwap.GuardedSameFailure` (about `ArtifactSwap.GuardedCoverage`) |

=== FILE: gate.dfy ===
/**
  The legacy-runtime gate (Gruntfile.js, `oldNode`, `runIfNewNode` and the
  `print_old_node_message` task), together with Grunt's task-name syntax
  `name:arg1:arg2` that the gate relies on.
 */
module Gate {
  import opened Text

  /** The stub task registered for runtimes that cannot run a gated task. */
  const StubTask := "print_old_node_message"

  /** `/^v0\./.test( process.version )`. */
  predicate IsOldNode(runtimeVersion: string)
  {
    "v0." <= runtimeVersion
  }

  /** The runtime counts as old exactly when its version starts `v0.`. */
  lemma OldNodeIsMajorZero(runtimeVersion: string)
    ensures IsOldNode(runtimeVersion) <==> exists rest :: runtimeVersion == "v0." + rest
  {
    if IsOldNode(runtimeVersion) {
      assert runtimeVersion == "v0." + runtimeVersion[3..];
    }
  }

  /** A task invocation as Grunt reads it: `copy:dist-to-tmp` names task
      `copy` with the single argument `dist-to-tmp`. */
  datatype Task = Task(name: string, args: seq<string>)

  /** Grunt's reading of an invocation string: split at every colon. */
  function Parse(s: string): (t: Task)
    ensures Join([t.name] + t.args, ":") == s
    ensures ':' !in t.name && forall i :: 0 <= i < |t.args| ==> ':' !in t.args[i]
  {
    var parts := SplitOn(s, ":");
    JoinSplit(s, ":");
    NoColonInPieces(parts);
    assert parts == [parts[0]] + parts[1..];
    Task(parts[0], parts[1..])
  }

  /** The pieces of a colon split hold no colon. */
  lemma NoColonInPieces(parts: seq<string>)
    requires forall i :: 0 <= i < |parts| ==> !Contains(parts[i], ":")
    ensures forall i :: 0 <= i < |parts| ==> ':' !in parts[i]
  {
    forall i | 0 <= i < |parts|
      ensures ':' !in parts[i]
    {
      if ':' in parts[i] {
        var k :| 0 <= k < |parts[i]| && parts[i][k] == ':';
        ContainsAt(parts[i], ":", k);
      }
    }
  }

  /** The invocation string for a task. */
  function Render(t: Task): string
  {
    Join([t.name] + t.args, ":")
  }

  predicate ColonFree(t: Task)
  {
    ':' !in t.name && forall i :: 0 <= i < |t.args| ==> ':' !in t.args[i]
  }

  /** A task whose name and arguments hold no colon is read back from its
      invocation string. */
  lemma ParseRender(t: Task)
    requires ColonFree(t)
    ensures Parse(Render(t)) == t
  {
    var parts := [t.name] + t.args;
    forall i | 0 <= i < |parts|
      ensures ':' !in parts[i]
    {
      if i > 0 {
        assert parts[i] == t.args[i - 1];
      }
    }
    SplitJoin(parts, ':');
    assert parts[1..] == t.args;
  }

  /** Every string is the rendering of its reading. */
  lemma RenderParse(s: string)
    ensures Render(Parse(s)) == s && ColonFree(Parse(s))
  {
  }

  /** `name:target` reads as task `name` with the one argument `target`. */
  lemma ParseTarget(name: string, target: string)
    requires ':' !in name && ':' !in target
    ensures Parse(name + ":" + target) == Task(name, [target])
  {
    assert [name] + [target] == [name, target];
    assert Join([target], ":") == target;
    JoinCons(name, [target], ":");
    ParseRender(Task(name, [target]));
  }

  /** `runIfNewNode( task )`. */
  function RunIfNewNode(legacy: bool, task: string): string
  {
    if legacy then StubTask + ":" + task else task
  }

  /** The task Grunt runs for a gated one: on an old runtime the stub,
      with the gated task's name and arguments as its arguments. */
  function Gated(legacy: bool, t: Task): Task
  {
    if legacy then Task(StubTask, [t.name] + t.args) else t
  }

  /** On an old runtime the gated string reads as the stub, invoked with
      the whole gated task as its arguments; on a current one it is the
      task itself. */
  lemma GateRoutesToStub(legacy: bool, task: string)
    ensures var t := Parse(RunIfNewNode(legacy, task));
            (legacy ==> t.name == StubTask && Join(t.args, ":") == task)
            && (!legacy ==> RunIfNewNode(legacy, task) == task)
  {
    if legacy {
      var r := StubTask + ":" + task;
      assert r == StubTask + (":" + task);
      assert ':' !in StubTask;
      SplitOnHead(StubTask, ":" + task, ':');
      assert (":" + task)[1..] == task;
      var rest := SplitOn(task, ":");
      assert SplitOn(":" + task, ":") == [[]] + rest;
      assert SplitOn(r, ":") == [StubTask + []] + rest;
      assert StubTask + [] == StubTask;
      JoinSplit(task, ":");
    }
  }

  /** Reading the gated invocation of a task gives `Gated`. */
  lemma GatedReadsAsGrunt(legacy: bool, t: Task)
    requires ColonFree(t)
    ensures Parse(RunIfNewNode(legacy, Render(t))) == Gated(legacy, t)
  {
    if legacy {
      RenderGated(t);
      GatedColonFree(t);
      ParseRender(Gated(true, t));
    } else {
      ParseRender(t);
    }
  }

  /** The gated invocation string renders the stub task. */
  lemma RenderGated(t: Task)
    ensures Render(Gated(true, t)) == RunIfNewNode(true, Render(t))
  {
    var g := Gated(true, t);
    assert [g.name] + g.args == [StubTask] + ([t.name] + t.args);
    JoinCons(StubTask, [t.name] + t.args, ":");
  }

  /** Gating adds no colon to a task's parts. */
  lemma GatedColonFree(t: Task)
    requires ColonFree(t)
    ensures ColonFree(Gated(true, t))
  {
    var g := Gated(true, t);
    assert ':' !in StubTask;
    forall i | 0 <= i < |g.args|
      ensures ':' !in g.args[i]
    {
      if i > 0 {
        assert g.args[i] == t.args[i - 1];
      }
    }
  }

  /** What the stub logs for the arguments it is invoked with; they are
      joined with `:` to rebuild the gated task's name. */
  function SkipMessage(args: seq<string>): string
  {
    "Old Node.js detected, running the task \"" + Join(args, ":") + "\" skipped..."
  }

  /** On an old runtime the stub runs in place of the task and its message
      names exactly the gated task, colons and all. */
  lemma StubNamesGatedTask(task: string)
    ensures Parse(RunIfNewNode(true, task)).name == StubTask
    ensures SkipMessage(Parse(RunIfNewNode(true, task)).args) ==
            "Old Node.js detected, running the task \"" + task + "\" skipped..."
  {
    GateRoutesToStub(true, task);
  }
}

=== FILE: pipeline.dfy ===
/**
  Grunt's task registry and runner as the build configuration uses them
  (Gruntfile.js): the `copy` targets, the alias tasks `build`, `test`,
  `coverage` and `default`, and a fail-fast interpreter that runs the
  expanded task list over a file system held as a map from paths to
  contents. Plugin tasks are opaque steps whose outcome and output come
  from a `World`. Task lists are held as Grunt reads them (`Task` values);
  `Gate.ParseTarget` and `LintEntryReads` relate them to the strings the
  configuration writes.
 */
module Pipeline {
  import opened Wrappers
  import opened Template
  import opened Gate
  import opened CoverageReport
  import opened Runner

  const Dist := "dist/qunit.js"
  const Tmp := "dist/qunit.tmp.js"
  const Instrumented := "build/instrumented/dist/qunit.js"
  const CssSource := "src/qunit.css"
  const DistCss := "dist/qunit.css"
  const StoredCoverage := "build/report/coverage.json"
  const Lcov := "build/report/lcov.info"

  /** Everything the configuration does not decide itself. */
  datatype World = World(
    runtime: string,             // `process.version`
    version: string,             // the `version` of package.json
    clock: nat -> string,        // `new Date().toISOString()` during the n-th step
    bundle: string,              // what rollup builds from src/qunit.js
    instrument: string -> string, // what the instrumenter makes of dist/qunit.js
    events: seq<CoverageEvent>,  // the coverage events the qunit run fires, in order
    storedCoverage: string,      // the coverage storeCoverage collects
    lcov: Fs -> string,          // the LCOV report makeReport derives
    passes: Task -> bool         // whether an opaque step succeeds
  )

  function Legacy(w: World): bool
  {
    IsOldNode(w.runtime)
  }

  datatype CopyTarget = CopyTarget(src: string, dest: string)

  /** The targets of the `copy` task. */
  function CopyTargetNamed(target: string): Option<CopyTarget>
  {
    if target == "src-js" then Some(CopyTarget(Dist, Dist))
    else if target == "src-css" then Some(CopyTarget(CssSource, DistCss))
    else if target == "dist-to-tmp" then Some(CopyTarget(Dist, Tmp))
    else if target == "instrumented-to-dist" then Some(CopyTarget(Instrumented, Dist))
    else if target == "tmp-to-dist" then Some(CopyTarget(Tmp, Dist))
    else None
  }

  /** The tasks that exist once the plugins are loaded; on an old runtime
      the eslint plugin is not loaded. */
  predicate Defined(legacy: bool, t: Task)
  {
    || t.name == StubTask
    || (t.name == "copy" && |t.args| == 1 && CopyTargetNamed(t.args[0]).Some?)
    || (t.name == "rollup" && t.args == ["src"])
    || (t.name == "eslint" && !legacy)
    || t.name == "search" || t.name == "test-on-node" || t.name == "qunit"
    || t.name == "instrument" || t.name == "storeCoverage" || t.name == "makeReport"
    || t.name == "coveralls"
  }

  /** The files a task may write: a copy its destination, rollup the
      bundle, the stub nothing, any other task only under `build/`. */
  predicate MayWrite(t: Task, key: string)
  {
    if t.name == StubTask then false
    else if t.name == "copy" then
      |t.args| == 1 && CopyTargetNamed(t.args[0]).Some? && CopyTargetNamed(t.args[0]).value.dest == key
    else if t.name == "rollup" then key == Dist
    else "build/" <= key
  }

  /** `key` is absent from both file systems or holds the same in both. */
  predicate SameAt(fs: Fs, fs': Fs, key: string)
  {
    (key in fs <==> key in fs') && (key in fs ==> fs[key] == fs'[key])
  }

  /** One copy: the source runs through `process` on its way to the
      destination. A source that does not exist expands to no files, so
      the copy then succeeds without writing anything. */
  function Copy(w: World, t: Task, c: CopyTarget, fs: Fs, tick: nat): (s: StepResult<Fs>)
    ensures s.ok <==> w.passes(t)
    ensures s.ok && c.src in fs ==> c.dest in s.fs && s.fs[c.dest] == Process(fs[c.src], w.version, w.clock(tick))
    ensures s.ok && c.src in fs && Clean(fs[c.src]) ==> s.fs[c.dest] == fs[c.src]
    ensures forall k :: k != c.dest ==> SameAt(fs, s.fs, k)
    ensures c.src !in fs ==> s.fs == fs
  {
    if !w.passes(t) then StepResult(fs, false)
    else if c.src in fs then
      var out := Process(fs[c.src], w.version, w.clock(tick));
      StepResult(fs[c.dest := out], true)
    else StepResult(fs, true)
  }

  /**
    Running one task. The stub only logs, an undefined task fails,
    `coveralls` is configured with `force` and never fails, and the qunit
    run writes one report per coverage event whether or not its tests pass.
   */
  function Step(w: World, t: Task, fs: Fs, tick: nat): (s: StepResult<Fs>)
    ensures t.name == StubTask ==> s == StepResult(fs, true)
    ensures !Defined(Legacy(w), t) ==> !s.ok
    ensures forall k :: !MayWrite(t, k) ==> SameAt(fs, s.fs, k)
    ensures !s.ok && t.name != "qunit" ==> s.fs == fs
  {
    if t.name == StubTask then StepResult(fs, true)
    else if t.name == "copy" then
      if |t.args| == 1 && CopyTargetNamed(t.args[0]).Some? then
        Copy(w, t, CopyTargetNamed(t.args[0]).value, fs, tick)
      else StepResult(fs, false)
    else if t.name == "rollup" then
      if t.args == ["src"] && w.passes(t) then StepResult(fs[Dist := w.bundle], true)
      else StepResult(fs, false)
    else if t.name == "instrument" then
      if !w.passes(t) then StepResult(fs, false)
      else if Dist in fs then StepResult(fs[Instrumented := w.instrument(fs[Dist])], true)
      else StepResult(fs, true)
    else if t.name == "eslint" then StepResult(fs, !Legacy(w) && w.passes(t))
    else if t.name == "search" || t.name == "test-on-node" then StepResult(fs, w.passes(t))
    else if t.name == "qunit" then
      var out := ApplyEvents(fs, w.events);
      forall k | !("build/" <= k)
        ensures SameAt(fs, out, k)
      {
      }
      StepResult(out, w.passes(t))
    else if t.name == "storeCoverage" then
      if w.passes(t) then StepResult(fs[StoredCoverage := w.storedCoverage], true)
      else StepResult(fs, false)
    else if t.name == "makeReport" then
      if w.passes(t) then StepResult(fs[Lcov := w.lcov(fs)], true)
      else StepResult(fs, false)
    else if t.name == "coveralls" then StepResult(fs, true)
    else StepResult(fs, false)
  }

  /** A `copy:<target>` step is the copy of that target. */
  lemma CopyStep(w: World, target: string, fs: Fs, tick: nat)
    requires CopyTargetNamed(target).Some?
    ensures var t := Task("copy", [target]);
            Step(w, t, fs, tick) == Copy(w, t, CopyTargetNamed(target).value, fs, tick)
  {
  }

  /** Step as the runner takes it. */
  function StepOf(w: World): (Task, Fs, nat) -> StepResult<Fs>
  {
    (t, fs, tick: nat) => Step(w, t, fs, tick)
  }

  /** A key that no task of the list may write is the same after the run,
      whether the run succeeds or fails. */
  lemma {:induction false} RunKeeps(w: World, tasks: seq<Task>, fs: Fs, tick: nat, key: string)
    requires forall i :: 0 <= i < |tasks| ==> !MayWrite(tasks[i], key)
    ensures SameAt(fs, Run(StepOf(w), tasks, fs, tick).fs, key)
    decreases |tasks|
  {
    if |tasks| > 0 {
      var s := Step(w, tasks[0], fs, tick);
      if s.ok {
        RunKeeps(w, tasks[1..], s.fs, tick + 1, key);
      }
    }
  }

  // ---------------------------------------------------------------------
  // The task registry

  const Lint := Task("eslint", [])

  const BuildTasks: seq<Task> := [Task("rollup", ["src"]), Task("copy", ["src-js"]), Task("copy", ["src-css"])]

  function TestTasks(legacy: bool): seq<Task>
  {
    [Gated(legacy, Lint), Task("search", []), Task("test-on-node", []), Task("qunit", [])]
  }

  const SwapIn: seq<Task> := [Task("instrument", []), Task("copy", ["dist-to-tmp"]), Task("copy", ["instrumented-to-dist"])]
  const SwapOut: seq<Task> := [Task("copy", ["tmp-to-dist"])]
  const Publish: seq<Task> := [Task("storeCoverage", []), Task("makeReport", []), Task("coveralls", [])]

  const CoverageTasks: seq<Task> := [Task("build", [])] + SwapIn + [Task("test", [])] + SwapOut + Publish

  const DefaultTasks: seq<Task> := [Task("build", []), Task("test", [])]

  /** The registry's gated lint entry reads as `Gated` says. */
  lemma LintEntryReads(legacy: bool)
    ensures Parse(RunIfNewNode(legacy, "eslint")) == Gated(legacy, Lint)
  {
    assert [Lint.name] + Lint.args == ["eslint"];
    assert Render(Lint) == "eslint";
    GatedReadsAsGrunt(legacy, Lint);
  }

  /** The alias tasks and the lists they stand for. */
  function Alias(legacy: bool, name: string): Option<seq<Task>>
  {
    if name == "build" then Some(BuildTasks)
    else if name == "test" then Some(TestTasks(legacy))
    else if name == "coverage" then Some(CoverageTasks)
    else if name == "default" then Some(DefaultTasks)
    else None
  }

  /** How deep an alias nests; it bounds the expansion. */
  function Rank(name: string): nat
  {
    if name == "coverage" || name == "default" then 2
    else if name == "build" || name == "test" then 1
    else 0
  }

  /** Every task of the list has rank below `bound`. */
  predicate Ranked(ts: seq<Task>, bound: nat)
  {
    forall i :: 0 <= i < |ts| ==> Rank(ts[i].name) < bound
  }

  /** No task of the list is an alias. */
  predicate Plain(legacy: bool, ts: seq<Task>)
  {
    forall i :: 0 <= i < |ts| ==> Alias(legacy, ts[i].name).None?
  }

  lemma RankedAppend(a: seq<Task>, b: seq<Task>, bound: nat)
    requires Ranked(a, bound) && Ranked(b, bound)
    ensures Ranked(a + b, bound)
  {
    forall i | 0 <= i < |a + b|
      ensures Rank((a + b)[i].name) < bound
    {
      if i >= |a| {
        assert (a + b)[i] == b[i - |a|];
      }
    }
  }

  lemma PlainAppend(legacy: bool, a: seq<Task>, b: seq<Task>)
    requires Plain(legacy, a) && Plain(legacy, b)
    ensures Plain(legacy, a + b)
  {
    forall i | 0 <= i < |a + b|
      ensures Alias(legacy, (a + b)[i].name).None?
    {
      if i >= |a| {
        assert (a + b)[i] == b[i - |a|];
      }
    }
  }

  /** The plain segments of the aliases: rank 0, so below any alias. */
  lemma SegmentsPlain(legacy: bool)
    ensures Plain(legacy, BuildTasks) && Ranked(BuildTasks, 1)
    ensures Plain(legacy, SwapIn) && Ranked(SwapIn, 1)
    ensures Plain(legacy, TestTasks(legacy)) && Ranked(TestTasks(legacy), 1)
    ensures Plain(legacy, SwapOut) && Ranked(SwapOut, 1)
    ensures Plain(legacy, Publish) && Ranked(Publish, 1)
  {
    BuildPlain(legacy);
    SwapInPlain(legacy);
    TestPlain(legacy);
    SwapOutPlain(legacy);
    PublishPlain(legacy);
  }

  lemma BuildPlain(legacy: bool)
    ensures Plain(legacy, BuildTasks) && Ranked(BuildTasks, 1)
  {
  }

  lemma SwapInPlain(legacy: bool)
    ensures Plain(legacy, SwapIn) && Ranked(SwapIn, 1)
  {
  }

  lemma TestPlain(legacy: bool)
    ensures Plain(legacy, TestTasks(legacy)) && Ranked(TestTasks(legacy), 1)
  {
  }

  lemma SwapOutPlain(legacy: bool)
    ensures Plain(legacy, SwapOut) && Ranked(SwapOut, 1)
  {
  }

  lemma PublishPlain(legacy: bool)
    ensures Plain(legacy, Publish) && Ranked(Publish, 1)
  {
  }

  /** Every alias refers only to tasks of lower rank. */
  lemma AliasRanks(legacy: bool, name: string)
    ensures Alias(legacy, name).Some? ==> Ranked(Alias(legacy, name).value, Rank(name))
  {
  }

  /** The list of plain tasks an invocation runs: aliases are replaced by
      their lists, recursively. */
  function Expand(legacy: bool, t: Task): (r: seq<Task>)
    ensures forall i :: 0 <= i < |r| ==> Alias(legacy, r[i].name).None?
    decreases Rank(t.name) + 1, 0
  {
    match Alias(legacy, t.name)
    case None => [t]
    case Some(children) =>
      AliasRanks(legacy, t.name);
      ExpandAll(legacy, children, Rank(t.name))
  }

  function ExpandAll(legacy: bool, ts: seq<Task>, bound: nat): (r: seq<Task>)
    requires Ranked(ts, bound)
    ensures Plain(legacy, r)
    decreases bound, |ts|
  {
    if |ts| == 0 then []
    else Expand(legacy, ts[0]) + ExpandAll(legacy, ts[1..], bound)
  }

  /** Expanding a list piecewise. */
  lemma {:induction false} ExpandAllAppend(legacy: bool, a: seq<Task>, b: seq<Task>, bound: nat)
    requires Ranked(a, bound) && Ranked(b, bound)
    ensures ExpandAll(legacy, a + b, bound) == ExpandAll(legacy, a, bound) + ExpandAll(legacy, b, bound)
    decreases |a|
  {
    if |a| > 0 {
      assert (a + b)[0] == a[0];
      assert (a + b)[1..] == a[1..] + b;
      ExpandAllAppend(legacy, a[1..], b, bound);
    } else {
      assert a + b == b;
    }
  }

  /** A list of plain tasks expands to itself. */
  lemma {:induction false} ExpandAllPlain(legacy: bool, ts: seq<Task>, bound: nat)
    requires Ranked(ts, bound) && Plain(legacy, ts)
    ensures ExpandAll(legacy, ts, bound) == ts
    decreases |ts|
  {
    if |ts| > 0 {
      ExpandAllPlain(legacy, ts[1..], bound);
      assert ts == [ts[0]] + ts[1..];
    }
  }

  /** A one-task list expands as its task. */
  lemma ExpandAllOne(legacy: bool, t: Task, bound: nat)
    requires Rank(t.name) < bound
    ensures ExpandAll(legacy, [t], bound) == Expand(legacy, t)
  {
    assert [t][1..] == [];
  }

  /** Raising the bound keeps a list ranked. */
  lemma RankedRaise(ts: seq<Task>, a: nat, b: nat)
    requires Ranked(ts, a) && a <= b
    ensures Ranked(ts, b)
  {
  }

  /** The alias entries inside `coverage` and `default` are below rank 2. */
  lemma InnerAliasesRanked()
    ensures Ranked([Task("build", [])], 2) && Ranked([Task("test", [])], 2)
  {
  }

  /** `build` stands for its own list. */
  lemma BuildExpands(legacy: bool)
    ensures Expand(legacy, Task("build", [])) == BuildTasks
  {
    SegmentsPlain(legacy);
    ExpandAllPlain(legacy, BuildTasks, 1);
  }

  /** `test` stands for its own list, with the lint task gated. */
  lemma TestExpands(legacy: bool)
    ensures Expand(legacy, Task("test", [])) == TestTasks(legacy)
  {
    SegmentsPlain(legacy);
    ExpandAllPlain(legacy, TestTasks(legacy), 1);
  }

  /** `default` builds and then tests. */
  lemma DefaultSequence(legacy: bool)
    ensures Expand(legacy, Task("default", [])) == BuildTasks + TestTasks(legacy)
  {
    BuildExpands(legacy);
    TestExpands(legacy);
    InnerAliasesRanked();
    assert DefaultTasks == [Task("build", [])] + [Task("test", [])];
    ExpandAllAppend(legacy, [Task("build", [])], [Task("test", [])], 2);
    ExpandAllOne(legacy, Task("build", []), 2);
    ExpandAllOne(legacy, Task("test", []), 2);
  }

  /** `coverage` builds, swaps the instrumented bundle in, tests, swaps the
      built bundle back, and publishes the report. */
  lemma CoverageSequence(legacy: bool)
    ensures Expand(legacy, Task("coverage", [])) == BuildTasks + SwapIn + TestTasks(legacy) + SwapOut + Publish
  {
    CoveragePartsExpand(legacy);
    Regroup(BuildTasks, SwapIn, TestTasks(legacy), SwapOut, Publish);
    assert CoverageTasks == [Task("build", [])] + SwapIn + [Task("test", [])] + (SwapOut + Publish);
  }

  lemma CoveragePartsExpand(legacy: bool)
    ensures Ranked([Task("build", [])] + SwapIn + [Task("test", [])] + (SwapOut + Publish), 2)
    ensures ExpandAll(legacy, [Task("build", [])] + SwapIn + [Task("test", [])] + (SwapOut + Publish), 2)
            == BuildTasks + SwapIn + TestTasks(legacy) + (SwapOut + Publish)
  {
    var head := [Task("build", [])] + SwapIn;
    var tail := SwapOut + Publish;
    CoverageHead(legacy);
    CoverageTest(legacy);
    CoverageTail(legacy);
    InnerAliasesRanked();
    RankedAppend(head, [Task("test", [])], 2);
    ExpandAllAppend(legacy, head + [Task("test", [])], tail, 2);
    ExpandAllAppend(legacy, head, [Task("test", [])], 2);
    RankedAppend(head + [Task("test", [])], tail, 2);
  }

  /** The part of `coverage` before the tests. */
  lemma CoverageHead(legacy: bool)
    ensures Ranked([Task("build", [])] + SwapIn, 2)
    ensures ExpandAll(legacy, [Task("build", [])] + SwapIn, 2) == BuildTasks + SwapIn
  {
    SegmentsPlain(legacy);
    InnerAliasesRanked();
    RankedRaise(SwapIn, 1, 2);
    RankedAppend([Task("build", [])], SwapIn, 2);
    ExpandAllAppend(legacy, [Task("build", [])], SwapIn, 2);
    ExpandAllOne(legacy, Task("build", []), 2);
    BuildExpands(legacy);
    ExpandAllPlain(legacy, SwapIn, 2);
  }

  /** The tests inside `coverage`. */
  lemma CoverageTest(legacy: bool)
    ensures ExpandAll(legacy, [Task("test", [])], 2) == TestTasks(legacy)
  {
    InnerAliasesRanked();
    ExpandAllOne(legacy, Task("test", []), 2);
    TestExpands(legacy);
  }

  /** The part of `coverage` after the tests. */
  lemma CoverageTail(legacy: bool)
    ensures Ranked(SwapOut + Publish, 2)
    ensures ExpandAll(legacy, SwapOut + Publish, 2) == SwapOut + Publish
  {
    SegmentsPlain(legacy);
    RankedRaise(SwapOut, 1, 2);
    RankedRaise(Publish, 1, 2);
    RankedAppend(SwapOut, Publish, 2);
    PlainAppend(legacy, SwapOut, Publish);
    ExpandAllPlain(legacy, SwapOut + Publish, 2);
  }

  lemma Regroup<T>(a: seq<T>, b: seq<T>, c: seq<T>, d: seq<T>, e: seq<T>)
    ensures (a + b) + c + (d + e) == a + b + c + d + e
  {
  }

  // ---------------------------------------------------------------------
  // Every task an alias names exists

  predicate AllDefined(legacy: bool, tasks: seq<Task>)
  {
    forall i :: 0 <= i < |tasks| ==> Defined(legacy, tasks[i])
  }

  lemma AllDefinedAppend(legacy: bool, a: seq<Task>, b: seq<Task>)
    requires AllDefined(legacy, a) && AllDefined(legacy, b)
    ensures AllDefined(legacy, a + b)
  {
    forall i | 0 <= i < |a + b|
      ensures Defined(legacy, (a + b)[i])
    {
      if i >= |a| {
        assert (a + b)[i] == b[i - |a|];
      }
    }
  }

  /** Each segment of the aliases names registered tasks only. */
  lemma SegmentsDefined(legacy: bool)
    ensures AllDefined(legacy, BuildTasks) && AllDefined(legacy, SwapIn)
    ensures AllDefined(legacy, TestTasks(legacy))
    ensures AllDefined(legacy, SwapOut) && AllDefined(legacy, Publish)
  {
    BuildDefined(legacy);
    SwapDefined(legacy);
    TestDefined(legacy);
    PublishDefined(legacy);
  }

  lemma BuildDefined(legacy: bool)
    ensures AllDefined(legacy, BuildTasks)
  {
  }

  lemma SwapDefined(legacy: bool)
    ensures AllDefined(legacy, SwapIn) && AllDefined(legacy, SwapOut)
  {
  }

  lemma TestDefined(legacy: bool)
    ensures AllDefined(legacy, TestTasks(legacy))
  {
  }

  lemma PublishDefined(legacy: bool)
    ensures AllDefined(legacy, Publish)
  {
  }

  /** On either runtime, every task `default` and `coverage` expand to is
      registered, so neither fails for want of a task. */
  lemma AliasesReferenceDefinedTasks(legacy: bool)
    ensures AllDefined(legacy, Expand(legacy, Task("default", [])))
    ensures AllDefined(legacy, Expand(legacy, Task("coverage", [])))
  {
    SegmentsDefined(legacy);
    DefaultSequence(legacy);
    AllDefinedAppend(legacy, BuildTasks, TestTasks(legacy));
    CoverageSequence(legacy);
    AllDefinedAppend(legacy, BuildTasks, SwapIn);
    AllDefinedAppend(legacy, BuildTasks + SwapIn, TestTasks(legacy));
    AllDefinedAppend(legacy, BuildTasks + SwapIn + TestTasks(legacy), SwapOut);
    AllDefinedAppend(legacy, BuildTasks + SwapIn + TestTasks(legacy) + SwapOut, Publish);
  }

  /** On an old runtime the eslint plugin is not loaded, so `test` runs the
      stub in its place, and a bare `eslint` step would fail. */
  lemma LintGatedOnOldNode(w: World, fs: Fs, tick: nat)
    requires Legacy(w)
    ensures forall i :: 0 <= i < |Expand(true, Task("test", []))| ==> Expand(true, Task("test", []))[i].name != "eslint"
    ensures Expand(true, Task("test", []))[0] == Task(StubTask, ["eslint"])
    ensures !Step(w, Lint, fs, tick).ok
  {
    TestExpands(true);
  }
}

=== FILE: report.dfy ===
/**
  The `qunit.coverage` event handler (Gruntfile.js): each test page that
  finishes hands over its coverage payload, which is written to a report
  file named after the page. The file system is a map from paths to
  contents; the payload is represented by its serialised JSON text.
 */
module CoverageReport {
  import opened Text

  type Fs = map<string, string>

  /** The segment that marks the test root in a page's path. */
  const TestRoot := "/test/"

  const PhantomDir := "build/report/phantom/"

  datatype CoverageEvent = CoverageEvent(file: string, payload: string)

  /** `file.split( "/test/" ).pop()`: the last piece of the split. */
  function TestBase(file: string): string
  {
    LastPiece(file, TestRoot)
  }

  /** `.replace( ".html", "" )` on that piece: the first `.html`, wherever
      it stands, is removed. */
  function TestName(file: string): string
  {
    ReplaceFirst(TestBase(file), ".html", "")
  }

  /** `path.join( "build/report/phantom", testName + ".json" )`. */
  function ReportPath(testName: string): (p: string)
    ensures PhantomDir <= p && p[|p| - 5..] == ".json"
  {
    PhantomDir + testName + ".json"
  }

  /** The base is what follows the last separator found by the split: it
      holds no `/test/` and the path ends with `/test/` and the base (or is
      the base, when it has no `/test/` at all). */
  lemma TestBaseFollowsLastRoot(file: string)
    ensures !Contains(TestBase(file), TestRoot)
    ensures !Contains(file, TestRoot) ==> TestBase(file) == file
    ensures Contains(file, TestRoot) ==>
              exists pre :: file == pre + TestRoot + TestBase(file)
  {
    var parts := SplitOn(file, TestRoot);
    JoinSplit(file, TestRoot);
    if Contains(file, TestRoot) {
      JoinSnoc(parts, TestRoot);
      var pre := Join(parts[..|parts| - 1], TestRoot);
      assert file == pre + TestRoot + TestBase(file);
    }
  }

  /** When the base reads `stem.html…` with no `.html` in `stem`, the test
      name is the base with that one `.html` taken out. */
  lemma TestNameDropsFirstHtml(file: string, stem: string, post: string)
    requires TestBase(file) == stem + ".html" + post
    requires !Contains(stem, ".html")
    ensures TestName(file) == stem + post
  {
    ReplaceFirstAfter(stem, ".html", post, "");
    assert stem + "" + post == stem + post;
  }

  /** Distinct test names get distinct report files. */
  lemma ReportPathInjective(a: string, b: string)
    ensures ReportPath(a) == ReportPath(b) ==> a == b
  {
    if ReportPath(a) == ReportPath(b) {
      assert a == ReportPath(a)[|PhantomDir|..|ReportPath(a)| - 5];
      assert b == ReportPath(b)[|PhantomDir|..|ReportPath(b)| - 5];
    }
  }

  /** The report file an event is written to. */
  function EventPath(e: CoverageEvent): string
  {
    ReportPath(TestName(e.file))
  }

  /** `createFileSync` then `writeJsonSync`: the event's report file ends up
      holding its payload, overwriting any earlier one, and no other file
      changes. */
  function OnCoverage(fs: Fs, e: CoverageEvent): (fs': Fs)
    ensures fs'.Keys == fs.Keys + {EventPath(e)}
    ensures fs'[EventPath(e)] == e.payload
    ensures forall p :: p in fs && p != EventPath(e) ==> fs'[p] == fs[p]
  {
    fs[EventPath(e) := e.payload]
  }

  /** The events of one test run, handled in the order they arrive. */
  function ApplyEvents(fs: Fs, events: seq<CoverageEvent>): (fs': Fs)
    ensures forall p :: !(PhantomDir <= p) ==> (p in fs' <==> p in fs)
    ensures forall p :: p in fs && !(PhantomDir <= p) ==> fs'[p] == fs[p]
    decreases |events|
  {
    if |events| == 0 then fs
    else ApplyEvents(OnCoverage(fs, events[0]), events[1..])
  }

  /** No two events of the run derive the same test name. */
  predicate DistinctNames(events: seq<CoverageEvent>)
  {
    forall i, j :: 0 <= i < j < |events| ==> TestName(events[i].file) != TestName(events[j].file)
  }

  /** The report files the run writes. */
  function EventPaths(events: seq<CoverageEvent>): set<string>
  {
    set i | 0 <= i < |events| :: EventPath(events[i])
  }

  /** The files of a run are the first event's file and those of the rest. */
  lemma EventPathsCons(events: seq<CoverageEvent>)
    requires |events| > 0
    ensures EventPaths(events) == {EventPath(events[0])} + EventPaths(events[1..])
  {
    var rest := events[1..];
    forall p | p in EventPaths(events)
      ensures p in {EventPath(events[0])} + EventPaths(rest)
    {
      var i :| 0 <= i < |events| && p == EventPath(events[i]);
      if i > 0 {
        assert p == EventPath(rest[i - 1]);
      }
    }
    forall p | p in EventPaths(rest)
      ensures p in EventPaths(events)
    {
      var i :| 0 <= i < |rest| && p == EventPath(rest[i]);
      assert p == EventPath(events[i + 1]);
    }
  }

  /** With distinct test names the first event's file is written by no
      later event. */
  lemma FirstPathNotRepeated(events: seq<CoverageEvent>)
    requires |events| > 0 && DistinctNames(events)
    ensures EventPath(events[0]) !in EventPaths(events[1..])
  {
    var rest := events[1..];
    forall k | 0 <= k < |rest|
      ensures EventPath(rest[k]) != EventPath(events[0])
    {
      assert rest[k] == events[k + 1];
      ReportPathInjective(TestName(rest[k].file), TestName(events[0].file));
    }
  }

  /** With distinct test names every event's payload lands in its own file,
      the run adds exactly those files, and nothing else changes. */
  lemma {:induction false} EventsWriteOwnReports(fs: Fs, events: seq<CoverageEvent>)
    requires DistinctNames(events)
    ensures ApplyEvents(fs, events).Keys == fs.Keys + EventPaths(events)
    ensures forall i :: 0 <= i < |events| ==> ApplyEvents(fs, events)[EventPath(events[i])] == events[i].payload
    ensures forall p :: p in fs && p !in EventPaths(events) ==> ApplyEvents(fs, events)[p] == fs[p]
    decreases |events|
  {
    if |events| > 0 {
      var fs1 := OnCoverage(fs, events[0]);
      var rest := events[1..];
      var out := ApplyEvents(fs, events);
      assert out == ApplyEvents(fs1, rest);
      assert DistinctNames(rest);
      EventsWriteOwnReports(fs1, rest);
      EventPathsCons(events);
      FirstPathNotRepeated(events);
      forall i | 0 <= i < |events|
        ensures out[EventPath(events[i])] == events[i].payload
      {
        if i > 0 {
          assert events[i] == rest[i - 1];
        }
      }
    }
  }

  /** Runs with the same events write the same files. */
  lemma SameEventsSamePaths(a: seq<CoverageEvent>, b: seq<CoverageEvent>)
    requires forall e :: e in a <==> e in b
    ensures EventPaths(a) <= EventPaths(b)
  {
    forall p | p in EventPaths(a)
      ensures p in EventPaths(b)
    {
      var i :| 0 <= i < |a| && p == EventPath(a[i]);
      assert a[i] in b;
      var j :| 0 <= j < |b| && b[j] == a[i];
    }
  }

  /**
    The final state depends only on which events arrive, not on their
    order: two runs with distinct test names and the same events, in any
    interleaving, leave the same files.
   */
  lemma EventOrderIrrelevant(fs: Fs, a: seq<CoverageEvent>, b: seq<CoverageEvent>)
    requires DistinctNames(a) && DistinctNames(b)
    requires forall e :: e in a <==> e in b
    ensures ApplyEvents(fs, a) == ApplyEvents(fs, b)
  {
    var fa := ApplyEvents(fs, a);
    var fb := ApplyEvents(fs, b);
    SameKeys(fs, a, b);
    forall p | p in fa
      ensures fa[p] == fb[p]
    {
      SameValue(fs, a, b, p);
    }
  }

  /** Both runs leave the same set of files. */
  lemma SameKeys(fs: Fs, a: seq<CoverageEvent>, b: seq<CoverageEvent>)
    requires DistinctNames(a) && DistinctNames(b)
    requires forall e :: e in a <==> e in b
    ensures ApplyEvents(fs, a).Keys == ApplyEvents(fs, b).Keys
  {
    EventsWriteOwnReports(fs, a);
    EventsWriteOwnReports(fs, b);
    SameEventsSamePaths(a, b);
    SameEventsSamePaths(b, a);
  }

  /** Both runs agree on every file. */
  lemma SameValue(fs: Fs, a: seq<CoverageEvent>, b: seq<CoverageEvent>, p: string)
    requires DistinctNames(a) && DistinctNames(b)
    requires forall e :: e in a <==> e in b
    requires p in ApplyEvents(fs, a) && p in ApplyEvents(fs, b)
    ensures ApplyEvents(fs, a)[p] == ApplyEvents(fs, b)[p]
  {
    EventsWriteOwnReports(fs, a);
    EventsWriteOwnReports(fs, b);
    SameEventsSamePaths(a, b);
    SameEventsSamePaths(b, a);
    if p in EventPaths(a) {
      var i :| 0 <= i < |a| && p == EventPath(a[i]);
      assert a[i] in b;
      var j :| 0 <= j < |b| && b[j] == a[i];
    }
  }

  /** Starting without any of its report files, a run of N events with
      distinct test names leaves exactly N more files. */
  lemma {:induction false} ReportCount(fs: Fs, events: seq<CoverageEvent>)
    requires DistinctNames(events)
    requires forall i :: 0 <= i < |events| ==> EventPath(events[i]) !in fs
    ensures |ApplyEvents(fs, events)| == |fs| + |events|
    decreases |events|
  {
    if |events| > 0 {
      var fs1 := OnCoverage(fs, events[0]);
      var rest := events[1..];
      assert fs1.Keys == fs.Keys + {EventPath(events[0])};
      assert |fs1| == |fs| + 1;
      forall k | 0 <= k < |rest|
        ensures EventPath(rest[k]) !in fs1
      {
        assert rest[k] == events[k + 1];
        ReportPathInjective(TestName(rest[k].file), TestName(events[0].file));
      }
      ReportCount(fs1, rest);
    }
  }

  /** Below a root that no `/test/` straddles, the base is the part of the
      path after the test root, provided that part holds no `/test/`. */
  lemma TestBaseUnderRoot(root: string, rest: string)
    requires NoStraddle(root, TestRoot + rest, TestRoot)
    requires !Contains(rest, TestRoot)
    ensures TestBase(root + TestRoot + rest) == rest
  {
    var b := TestRoot + rest;
    assert TestRoot <= b;
    assert b[|TestRoot|..] == rest;
    LastPieceAfterSep(b, TestRoot);
    assert root + TestRoot + rest == root + b;
    LastPieceOfSuffix(root, b, TestRoot);
  }

  /**
    A page `<root>/test/<stem>.html`, where `stem` holds no `.` (so no
    `.html`) and no `/test/` (as with `reporter-html/index`), is named
    `stem` and reports to `build/report/phantom/<stem>.json`.
   */
  lemma PageReportPath(root: string, stem: string)
    requires NoStraddle(root, TestRoot + stem + ".html", TestRoot)
    requires !Contains(stem + ".html", TestRoot) && '.' !in stem
    ensures TestName(root + TestRoot + stem + ".html") == stem
    ensures EventPath(CoverageEvent(root + TestRoot + stem + ".html", [])) == PhantomDir + stem + ".json"
  {
    var file := root + TestRoot + stem + ".html";
    assert file == root + TestRoot + (stem + ".html");
    assert TestRoot + stem + ".html" == TestRoot + (stem + ".html");
    TestBaseUnderRoot(root, stem + ".html");
    ContainsAfter(stem, [], ".html");
    assert stem + [] == stem;
    assert stem + ".html" == stem + ".html" + [];
    TestNameDropsFirstHtml(file, stem, []);
  }
}

=== FILE: runner.dfy ===
/**
  Grunt's fail-fast sequencing, independent of what the tasks do: tasks
  run in order, each on the state the previous one left, and the first
  failure stops the run. A step is given as a function of the task, the
  state and the clock tick at which it runs.
 */
module Runner {
  import opened Wrappers

  datatype StepResult<S> = StepResult(fs: S, ok: bool)

  /** The result of running a task list: the state afterwards, the tasks
      that completed, and the task that failed, if one did. */
  datatype Outcome<T, S> = Outcome(fs: S, ran: seq<T>, failed: Option<T>)

  /** The n-th task of a run sees clock tick `tick + n`. */
  function Run<T, S>(step: (T, S, nat) -> StepResult<S>, tasks: seq<T>, fs: S, tick: nat): Outcome<T, S>
    decreases |tasks|
  {
    if |tasks| == 0 then Outcome(fs, [], None)
    else
      var s := step(tasks[0], fs, tick);
      if !s.ok then Outcome(s.fs, [], Some(tasks[0]))
      else
        var r := Run(step, tasks[1..], s.fs, tick + 1);
        Outcome(r.fs, [tasks[0]] + r.ran, r.failed)
  }

  /** The tasks that ran are a prefix of the list; either all of them ran
      or the run stopped at the one that failed. */
  lemma {:induction false} RunShape<T, S>(step: (T, S, nat) -> StepResult<S>, tasks: seq<T>, fs: S, tick: nat)
    ensures var r := Run(step, tasks, fs, tick);
            && r.ran <= tasks
            && (r.failed.None? <==> r.ran == tasks)
            && (r.failed.Some? ==> |r.ran| < |tasks| && r.failed.value == tasks[|r.ran|])
    decreases |tasks|
  {
    if |tasks| > 0 {
      var s := step(tasks[0], fs, tick);
      if s.ok {
        RunShape(step, tasks[1..], s.fs, tick + 1);
        assert tasks == [tasks[0]] + tasks[1..];
      }
    }
  }

  /** A run that fails stopped at a step that failed: every task before it
      ran and passed, the step of the task it reports failed, and the state
      is what that failing step left. */
  lemma {:induction false} RunStopsAtFailure<T, S>(step: (T, S, nat) -> StepResult<S>, tasks: seq<T>, fs: S, tick: nat)
    ensures var r := Run(step, tasks, fs, tick);
            r.failed.Some? ==>
              && |r.ran| < |tasks|
              && var p := Run(step, tasks[..|r.ran|], fs, tick);
                 var s := step(tasks[|r.ran|], p.fs, tick + |r.ran|);
                 p.failed.None? && p.ran == r.ran && !s.ok && r.fs == s.fs
    decreases |tasks|
  {
    var r := Run(step, tasks, fs, tick);
    if |tasks| > 0 && r.failed.Some? {
      var s0 := step(tasks[0], fs, tick);
      if s0.ok {
        var rest := Run(step, tasks[1..], s0.fs, tick + 1);
        RunStopsAtFailure(step, tasks[1..], s0.fs, tick + 1);
        var k := |rest.ran|;
        assert tasks[..k + 1][0] == tasks[0];
        assert tasks[..k + 1][1..] == tasks[1..][..k];
        assert tasks[k + 1] == tasks[1..][k];
      } else {
        assert tasks[..0] == [];
      }
    }
  }

  /** If `a` fails, running `a + b` is running `a`. */
  lemma {:induction false} RunAppendFails<T, S>(step: (T, S, nat) -> StepResult<S>, a: seq<T>, b: seq<T>, fs: S, tick: nat)
    requires Run(step, a, fs, tick).failed.Some?
    ensures Run(step, a + b, fs, tick) == Run(step, a, fs, tick)
    decreases |a|
  {
    assert (a + b)[0] == a[0];
    assert (a + b)[1..] == a[1..] + b;
    var s := step(a[0], fs, tick);
    if s.ok {
      RunAppendFails(step, a[1..], b, s.fs, tick + 1);
    }
  }

  /** A run of one task. */
  lemma RunSingle<T, S>(step: (T, S, nat) -> StepResult<S>, t: T, fs: S, tick: nat)
    ensures var s := step(t, fs, tick);
            Run(step, [t], fs, tick) == if s.ok then Outcome(s.fs, [t], None) else Outcome(s.fs, [], Some(t))
  {
    assert [t][1..] == [];
  }

  /** A run of two tasks, step by step. */
  lemma RunTwo<T, S>(step: (T, S, nat) -> StepResult<S>, a: T, b: T, fs: S, tick: nat)
    ensures var s0 := step(a, fs, tick);
            var s1 := step(b, s0.fs, tick + 1);
            Run(step, [a, b], fs, tick) ==
              if !s0.ok then Outcome(s0.fs, [], Some(a))
              else if !s1.ok then Outcome(s1.fs, [a], Some(b))
              else Outcome(s1.fs, [a, b], None)
  {
    assert [a, b][1..] == [b];
    RunSingle(step, b, step(a, fs, tick).fs, tick + 1);
  }

  /** A run of three tasks, step by step. */
  lemma RunThree<T, S>(step: (T, S, nat) -> StepResult<S>, a: T, b: T, c: T, fs: S, tick: nat)
    ensures var s0 := step(a, fs, tick);
            var s1 := step(b, s0.fs, tick + 1);
            var s2 := step(c, s1.fs, tick + 2);
            Run(step, [a, b, c], fs, tick) ==
              if !s0.ok then Outcome(s0.fs, [], Some(a))
              else if !s1.ok then Outcome(s1.fs, [a], Some(b))
              else if !s2.ok then Outcome(s2.fs, [a, b], Some(c))
              else Outcome(s2.fs, [a, b, c], None)
  {
    assert [a, b, c][1..] == [b, c];
    assert [b, c][1..] == [c];
    RunSingle(step, c, step(b, step(a, fs, tick).fs, tick + 1).fs, tick + 2);
  }

  /** If `a` succeeds, running `a + b` is running `b` on what `a` left,
      with the clock ticks continuing. */
  lemma {:induction false} RunAppendSucceeds<T, S>(step: (T, S, nat) -> StepResult<S>, a: seq<T>, b: seq<T>, fs: S, tick: nat)
    requires Run(step, a, fs, tick).failed.None?
    ensures var rb := Run(step, b, Run(step, a, fs, tick).fs, tick + |a|);
            Run(step, a + b, fs, tick) == Outcome(rb.fs, a + rb.ran, rb.failed)
    decreases |a|
  {
    if |a| == 0 {
      assert a + b == b;
    } else {
      var s := step(a[0], fs, tick);
      ConsSplit(a, b);
      RunAppendSucceeds(step, a[1..], b, s.fs, tick + 1);
      ConsSplit(a, Run(step, b, Run(step, a, fs, tick).fs, tick + |a|).ran);
    }
  }

  /** Splitting off the head of a non-empty list before appending. */
  lemma ConsSplit<T>(a: seq<T>, b: seq<T>)
    requires |a| > 0
    ensures (a + b)[0] == a[0] && (a + b)[1..] == a[1..] + b
    ensures [a[0]] + (a[1..] + b) == a + b
  {
  }

  /** Continuing a run that started at `tick` with further tasks, if it
      has not failed; the clock goes on from where it stopped. */
  function Then<T, S>(step: (T, S, nat) -> StepResult<S>, prior: Outcome<T, S>, tasks: seq<T>, tick: nat): Outcome<T, S>
  {
    if prior.failed.Some? then prior
    else
      var r := Run(step, tasks, prior.fs, tick + |prior.ran|);
      Outcome(r.fs, prior.ran + r.ran, r.failed)
  }

  /** Running `a + b` as a whole is running `a` and then `b`. */
  lemma RunAppend<T, S>(step: (T, S, nat) -> StepResult<S>, a: seq<T>, b: seq<T>, fs: S, tick: nat)
    ensures Run(step, a + b, fs, tick) == Then(step, Run(step, a, fs, tick), b, tick)
  {
    RunShape(step, a, fs, tick);
    if Run(step, a, fs, tick).failed.Some? {
      RunAppendFails(step, a, b, fs, tick);
    } else {
      RunAppendSucceeds(step, a, b, fs, tick);
    }
  }

  /** Continuing in two goes is continuing with both lists at once. */
  lemma ThenThen<T, S>(step: (T, S, nat) -> StepResult<S>, prior: Outcome<T, S>, a: seq<T>, b: seq<T>, tick: nat)
    ensures Then(step, Then(step, prior, a, tick), b, tick) == Then(step, prior, a + b, tick)
  {
    if prior.failed.None? {
      var t := tick + |prior.ran|;
      var ra := Run(step, a, prior.fs, t);
      RunAppend(step, a, b, prior.fs, t);
      if ra.failed.None? {
        RunShape(step, a, prior.fs, t);
        var rb := Run(step, b, ra.fs, t + |ra.ran|);
        assert tick + |prior.ran + ra.ran| == t + |ra.ran|;
        assert prior.ran + ra.ran + rb.ran == prior.ran + (ra.ran + rb.ran);
      }
    }
  }
}

=== FILE: swap.dfy ===
/**
  The `coverage` alias moves files around (Gruntfile.js): the built
  dist/qunit.js is parked in dist/qunit.tmp.js, the instrumented bundle
  takes its place for the tests, and the parked bundle is copied back
  afterwards. Every copy runs through `process`, so getting the built
  bundle back relies on `process` leaving an already processed bundle
  alone.
 */
module ArtifactSwap {
  import opened Wrappers
  import opened Text
  import opened Template
  import opened Gate
  import opened CoverageReport
  import opened Runner
  import opened Pipeline

  /** A world in which `process` removes every placeholder: the version
      cannot re-create `@VERSION` and the clock gives ISO timestamps. */
  ghost predicate WellFormed(w: World)
  {
    Inert(VersionToken, w.version) && forall n: nat :: Fits(w.clock(n), IsoPattern)
  }

  /** What `build` leaves in dist/qunit.js when it starts at `tick`. */
  function BuiltBundle(w: World, tick: nat): string
  {
    Process(w.bundle, w.version, w.clock(tick + 1))
  }

  /** The built bundle has no placeholder left. */
  lemma BuiltBundleClean(w: World, tick: nat)
    requires WellFormed(w)
    ensures Clean(BuiltBundle(w, tick))
  {
    ProcessLeavesNoPlaceholder(w.bundle, w.version, w.clock(tick + 1));
  }

  /** `build` succeeds exactly when its three steps pass; it then leaves the
      processed bundle in dist/, and the processed stylesheet when there is
      one to copy; without one, dist/qunit.css is left as it was. */
  lemma BuildStage(w: World, fs: Fs, tick: nat)
    ensures var b := Run(StepOf(w), BuildTasks, fs, tick);
            && (b.failed.None? <==> w.passes(BuildTasks[0]) && w.passes(BuildTasks[1]) && w.passes(BuildTasks[2]))
            && (b.failed.None? ==> Dist in b.fs && b.fs[Dist] == BuiltBundle(w, tick))
            && (b.failed.None? && CssSource in fs ==>
                  DistCss in b.fs && b.fs[DistCss] == Process(fs[CssSource], w.version, w.clock(tick + 2)))
            && (CssSource !in fs ==> SameAt(fs, b.fs, DistCss))
  {
    var r, c1, c2 := BuildTasks[0], BuildTasks[1], BuildTasks[2];
    assert BuildTasks == [r, c1, c2];
    RunThree(StepOf(w), r, c1, c2, fs, tick);
    var s0 := Step(w, r, fs, tick);
    CopyStep(w, "src-js", s0.fs, tick + 1);
    var s1 := Step(w, c1, s0.fs, tick + 1);
    CopyStep(w, "src-css", s1.fs, tick + 2);
  }

  /** What the later stages need of a `build` that succeeded: all three
      tasks ran and the built bundle is in dist/. */
  lemma BuildLeavesBundle(w: World, fs: Fs)
    ensures var b := Run(StepOf(w), BuildTasks, fs, 0);
            b.failed.None? ==> |b.ran| == 3 && Dist in b.fs && b.fs[Dist] == BuiltBundle(w, 0)
  {
    BuildStage(w, fs, 0);
    RunShape(StepOf(w), BuildTasks, fs, 0);
  }

  /** The swap-in parks the bundle in dist/qunit.tmp.js and puts the
      processed instrumented bundle in its place; if it fails part-way,
      dist/qunit.js still holds the bundle. */
  lemma SwapInStage(w: World, fs: Fs, tick: nat)
    requires Dist in fs && Clean(fs[Dist])
    ensures var i := Run(StepOf(w), SwapIn, fs, tick);
            && (i.failed.None? <==> w.passes(SwapIn[0]) && w.passes(SwapIn[1]) && w.passes(SwapIn[2]))
            && (i.failed.None? ==>
                  && Tmp in i.fs && i.fs[Tmp] == fs[Dist]
                  && Dist in i.fs && i.fs[Dist] == Process(w.instrument(fs[Dist]), w.version, w.clock(tick + 2)))
            && (i.failed.Some? ==> Dist in i.fs && i.fs[Dist] == fs[Dist])
  {
    var a, b, c := SwapIn[0], SwapIn[1], SwapIn[2];
    assert SwapIn == [a, b, c];
    RunThree(StepOf(w), a, b, c, fs, tick);
    var s0 := Step(w, a, fs, tick);
    CopyStep(w, "dist-to-tmp", s0.fs, tick + 1);
    var s1 := Step(w, b, s0.fs, tick + 1);
    CopyStep(w, "instrumented-to-dist", s1.fs, tick + 2);
  }

  /** dist/ lies outside build/. */
  lemma BundlesOutsideBuild()
    ensures !("build/" <= Dist) && !("build/" <= Tmp)
  {
    assert Dist[0] != "build/"[0];
    assert Tmp[0] != "build/"[0];
  }

  /** The tests never touch dist/qunit.js or dist/qunit.tmp.js. */
  lemma TestsKeepBundles(w: World, fs: Fs, tick: nat)
    ensures var t := Run(StepOf(w), TestTasks(Legacy(w)), fs, tick);
            SameAt(fs, t.fs, Dist) && SameAt(fs, t.fs, Tmp)
  {
    BundlesOutsideBuild();
    RunKeeps(w, TestTasks(Legacy(w)), fs, tick, Dist);
    RunKeeps(w, TestTasks(Legacy(w)), fs, tick, Tmp);
  }

  /** Publishing the report never touches dist/. */
  lemma PublishKeepsBundles(w: World, fs: Fs, tick: nat)
    ensures var p := Run(StepOf(w), Publish, fs, tick);
            SameAt(fs, p.fs, Dist) && SameAt(fs, p.fs, Tmp)
  {
    BundlesOutsideBuild();
    RunKeeps(w, Publish, fs, tick, Dist);
    RunKeeps(w, Publish, fs, tick, Tmp);
  }

  /** The swap-out copies the parked bundle back; a bundle without
      placeholders comes back unchanged. If it fails nothing changes. */
  lemma SwapOutStage(w: World, fs: Fs, tick: nat)
    requires Tmp in fs && Clean(fs[Tmp])
    ensures var o := Run(StepOf(w), SwapOut, fs, tick);
            && (o.failed.None? <==> w.passes(SwapOut[0]))
            && (o.failed.None? ==> Dist in o.fs && o.fs[Dist] == fs[Tmp] && SameAt(fs, o.fs, Tmp))
            && (o.failed.Some? ==> o.fs == fs)
  {
    RunSingle(StepOf(w), SwapOut[0], fs, tick);
    CopyStep(w, "tmp-to-dist", fs, tick);
  }

  /** `grunt coverage`: the expanded alias run from clock tick 0. */
  function CoverageRun(w: World, fs: Fs): Outcome<Task, Fs>
  {
    Run(StepOf(w), Expand(Legacy(w), Task("coverage", [])), fs, 0)
  }

  /** The run as its five stages, each continuing where the last stopped. */
  function Staged(w: World, fs: Fs): Outcome<Task, Fs>
  {
    var step := StepOf(w);
    var b := Run(step, BuildTasks, fs, 0);
    var bi := Then(step, b, SwapIn, 0);
    var bit := Then(step, bi, TestTasks(Legacy(w)), 0);
    var bito := Then(step, bit, SwapOut, 0);
    Then(step, bito, Publish, 0)
  }

  /** The coverage run is its stages run in order. */
  lemma CoverageInStages(w: World, fs: Fs)
    ensures CoverageRun(w, fs) == Staged(w, fs)
  {
    var step := StepOf(w);
    var test := TestTasks(Legacy(w));
    CoverageSequence(Legacy(w));
    RunAppend(step, BuildTasks + SwapIn + test + SwapOut, Publish, fs, 0);
    RunAppend(step, BuildTasks + SwapIn + test, SwapOut, fs, 0);
    RunAppend(step, BuildTasks + SwapIn, test, fs, 0);
    RunAppend(step, BuildTasks, SwapIn, fs, 0);
  }

  /** A coverage run that completes leaves the built bundle in
      dist/qunit.js and its copy in dist/qunit.tmp.js: the instrumented
      bundle the tests ran against is gone. */
  lemma CoverageRestoresBundle(w: World, fs: Fs)
    requires WellFormed(w)
    ensures var r := CoverageRun(w, fs);
            r.failed.None? ==>
              && Dist in r.fs && r.fs[Dist] == BuiltBundle(w, 0)
              && Tmp in r.fs && r.fs[Tmp] == BuiltBundle(w, 0)
  {
    CoverageInStages(w, fs);
    var step := StepOf(w);
    var b := Run(step, BuildTasks, fs, 0);
    var bi := Then(step, b, SwapIn, 0);
    var bit := Then(step, bi, TestTasks(Legacy(w)), 0);
    var bito := Then(step, bit, SwapOut, 0);
    var r := Then(step, bito, Publish, 0);
    if r.failed.None? {
      assert bito.failed.None? && bit.failed.None? && bi.failed.None? && b.failed.None?;
      var d := BuiltBundle(w, 0);
      BuildStage(w, fs, 0);
      BuiltBundleClean(w, 0);
      SwapInStage(w, b.fs, |b.ran|);
      TestsKeepBundles(w, bi.fs, |bi.ran|);
      SwapOutStage(w, bit.fs, |bit.ran|);
      PublishKeepsBundles(w, bito.fs, |bito.ran|);
    }
  }

  /** No prefix of the tests touches dist/qunit.js. */
  lemma TestPrefixKeepsBundle(w: World, fs: Fs, k: nat, tick: nat)
    requires k <= |TestTasks(Legacy(w))|
    ensures SameAt(fs, Run(StepOf(w), TestTasks(Legacy(w))[..k], fs, tick).fs, Dist)
  {
    BundlesOutsideBuild();
    RunKeeps(w, TestTasks(Legacy(w))[..k], fs, tick, Dist);
  }

  /** While the tests run, dist/qunit.js holds the instrumented bundle,
      processed once more on its way in at tick 5. */
  lemma TestsRunInstrumented(w: World, fs: Fs, k: nat)
    requires k <= |TestTasks(Legacy(w))|
    ensures var step := StepOf(w);
            var bi := Then(step, Run(step, BuildTasks, fs, 0), SwapIn, 0);
            var upTo := Then(step, bi, TestTasks(Legacy(w))[..k], 0);
            bi.failed.None? && Clean(BuiltBundle(w, 0)) ==>
              Dist in upTo.fs && upTo.fs[Dist] == Process(w.instrument(BuiltBundle(w, 0)), w.version, w.clock(5))
  {
    var step := StepOf(w);
    var b := Run(step, BuildTasks, fs, 0);
    var bi := Then(step, b, SwapIn, 0);
    if bi.failed.None? && Clean(BuiltBundle(w, 0)) {
      assert b.failed.None?;
      BuildLeavesBundle(w, fs);
      SwapInStage(w, b.fs, |b.ran|);
      TestPrefixKeepsBundle(w, bi.fs, k, |bi.ran|);
    }
  }

  /**
    As written, `coverage` is fail-fast: when a test fails, the run stops
    inside the tests and the swap-out never runs, so dist/qunit.js is left
    holding the instrumented bundle while the built one sits in
    dist/qunit.tmp.js.
   */
  lemma TestFailureLeavesInstrumented(w: World, fs: Fs)
    requires WellFormed(w)
    ensures var step := StepOf(w);
            var bi := Then(step, Run(step, BuildTasks, fs, 0), SwapIn, 0);
            var bit := Then(step, bi, TestTasks(Legacy(w)), 0);
            var r := CoverageRun(w, fs);
            var instrumented := Process(w.instrument(BuiltBundle(w, 0)), w.version, w.clock(5));
            bi.failed.None? && bit.failed.Some? ==>
              && r.failed == bit.failed && r.failed.value in TestTasks(Legacy(w))
              && |r.ran| < |BuildTasks + SwapIn + TestTasks(Legacy(w))|
              && Dist in r.fs && r.fs[Dist] == instrumented
              && Tmp in r.fs && r.fs[Tmp] == BuiltBundle(w, 0)
              && (instrumented != BuiltBundle(w, 0) ==> r.fs[Dist] != BuiltBundle(w, 0))
  {
    CoverageInStages(w, fs);
    var step := StepOf(w);
    var b := Run(step, BuildTasks, fs, 0);
    var bi := Then(step, b, SwapIn, 0);
    var bit := Then(step, bi, TestTasks(Legacy(w)), 0);
    if bi.failed.None? && bit.failed.Some? {
      SwapInLeavesInstrumented(w, fs);
      TestsKeepBundles(w, bi.fs, |bi.ran|);
      RunShape(step, TestTasks(Legacy(w)), bi.fs, |bi.ran|);
    }
  }

  /** After a swap-in that succeeded, six tasks have run, dist/qunit.js
      holds the processed instrumented bundle and the tmp file the built
      one. */
  lemma SwapInLeavesInstrumented(w: World, fs: Fs)
    requires WellFormed(w)
    ensures var step := StepOf(w);
            var bi := Then(step, Run(step, BuildTasks, fs, 0), SwapIn, 0);
            bi.failed.None? ==>
              && |bi.ran| == 6
              && Dist in bi.fs && bi.fs[Dist] == Process(w.instrument(BuiltBundle(w, 0)), w.version, w.clock(5))
              && Tmp in bi.fs && bi.fs[Tmp] == BuiltBundle(w, 0)
  {
    var step := StepOf(w);
    var b := Run(step, BuildTasks, fs, 0);
    var bi := Then(step, b, SwapIn, 0);
    if bi.failed.None? {
      assert b.failed.None?;
      BuildLeavesBundle(w, fs);
      BuiltBundleClean(w, 0);
      SwapInStage(w, b.fs, |b.ran|);
      RunShape(step, SwapIn, b.fs, |b.ran|);
    }
  }

  /** The copy back is not among the tasks before it. */
  lemma RestoreNotEarlier(legacy: bool)
    ensures SwapOut[0] !in BuildTasks + SwapIn + TestTasks(legacy)
  {
    var all := BuildTasks + SwapIn + TestTasks(legacy);
    forall i | 0 <= i < |all|
      ensures all[i] != SwapOut[0]
    {
      if i < 3 {
        assert all[i] == BuildTasks[i];
      } else if i < 6 {
        assert all[i] == SwapIn[i - 3];
      } else {
        assert all[i] == TestTasks(legacy)[i - 6];
      }
    }
  }

  /** When a test fails, the tasks that ran are the whole build and
      swap-in followed by the tests before the failing one, in the listed
      order; the failing task is the one right after them, and the copy
      back is not among those that ran. */
  lemma TestFailureSkipsRestore(w: World, fs: Fs)
    ensures var step := StepOf(w);
            var bi := Then(step, Run(step, BuildTasks, fs, 0), SwapIn, 0);
            var bit := Then(step, bi, TestTasks(Legacy(w)), 0);
            var r := CoverageRun(w, fs);
            bi.failed.None? && bit.failed.Some? ==>
              && BuildTasks + SwapIn <= r.ran
              && r.ran <= BuildTasks + SwapIn + TestTasks(Legacy(w))
              && r.failed.Some?
              && |r.ran| < |BuildTasks + SwapIn + TestTasks(Legacy(w))|
              && r.failed.value == (BuildTasks + SwapIn + TestTasks(Legacy(w)))[|r.ran|]
              && SwapOut[0] !in r.ran
  {
    CoverageInStages(w, fs);
    var step := StepOf(w);
    var test := TestTasks(Legacy(w));
    var b := Run(step, BuildTasks, fs, 0);
    var bi := Then(step, b, SwapIn, 0);
    var bit := Then(step, bi, test, 0);
    if bi.failed.None? && bit.failed.Some? {
      assert b.failed.None?;
      RunShape(step, BuildTasks, fs, 0);
      RunShape(step, SwapIn, b.fs, |b.ran|);
      var tr := Run(step, test, bi.fs, |bi.ran|);
      RunShape(step, test, bi.fs, |bi.ran|);
      assert bit.ran == BuildTasks + SwapIn + tr.ran;
      PrefixAfter(BuildTasks + SwapIn, tr.ran, test);
      assert (BuildTasks + SwapIn + test)[|bit.ran|] == test[|tr.ran|];
      RestoreNotEarlier(Legacy(w));
    }
  }

  /** A prefix stays a prefix behind a common head. */
  lemma PrefixAfter<T>(h: seq<T>, p: seq<T>, s: seq<T>)
    requires p <= s
    ensures h + p <= h + s
    ensures forall x :: x in h + p ==> x in h + s
  {
    assert (h + s)[..|h + p|] == h + p;
  }

  /**
    The coverage run with the swap-out in a `finally`: once the bundle is
    parked, the copy back runs whether or not the swap-in's last copy and
    the tests succeed. A failure of the copy back is reported in place of
    a test failure, as an exception thrown by a `finally` block would be;
    publishing runs only after a clean run.
   */
  function GuardedCoverage(w: World, fs: Fs): Outcome<Task, Fs>
  {
    var step := StepOf(w);
    var setup := Then(step, Run(step, BuildTasks, fs, 0), SwapIn[..2], 0);
    if setup.failed.Some? then setup
    else
      var body := Then(step, setup, SwapIn[2..] + TestTasks(Legacy(w)), 0);
      var restoreTick := |body.ran| + if body.failed.Some? then 1 else 0;
      var restore := Run(step, SwapOut, body.fs, restoreTick);
      var ran := body.ran + restore.ran;
      if restore.failed.Some? then Outcome(restore.fs, ran, restore.failed)
      else if body.failed.Some? then Outcome(restore.fs, ran, body.failed)
      else Then(step, Outcome(restore.fs, ran, None), Publish, 0)
  }

  /** The parked copy survives the instrumented copy and the tests. */
  lemma BodyKeepsParkedBundle(w: World, fs: Fs, tick: nat)
    ensures SameAt(fs, Run(StepOf(w), SwapIn[2..] + TestTasks(Legacy(w)), fs, tick).fs, Tmp)
  {
    BundlesOutsideBuild();
    RunKeeps(w, SwapIn[2..] + TestTasks(Legacy(w)), fs, tick, Tmp);
  }

  /** Instrumenting and parking leave dist/qunit.js alone, and once both
      succeed the parked copy is the bundle. */
  lemma ParkStage(w: World, fs: Fs, tick: nat)
    requires Dist in fs && Clean(fs[Dist])
    ensures var p := Run(StepOf(w), SwapIn[..2], fs, tick);
            && Dist in p.fs && p.fs[Dist] == fs[Dist]
            && (p.failed.None? ==> Tmp in p.fs && p.fs[Tmp] == fs[Dist])
  {
    var a, c := SwapIn[0], SwapIn[1];
    assert SwapIn[..2] == [a, c];
    RunTwo(StepOf(w), a, c, fs, tick);
    CopyStep(w, "dist-to-tmp", Step(w, a, fs, tick).fs, tick + 1);
  }

  /** The parked copy is the built bundle once the setup succeeds. */
  lemma SetupParksBundle(w: World, fs: Fs)
    requires WellFormed(w)
    ensures var step := StepOf(w);
            var b := Run(step, BuildTasks, fs, 0);
            var setup := Then(step, b, SwapIn[..2], 0);
            && (b.failed.None? ==> Dist in setup.fs && setup.fs[Dist] == BuiltBundle(w, 0))
            && (setup.failed.None? ==> Tmp in setup.fs && setup.fs[Tmp] == BuiltBundle(w, 0))
  {
    var step := StepOf(w);
    var b := Run(step, BuildTasks, fs, 0);
    BuildStage(w, fs, 0);
    BuiltBundleClean(w, 0);
    if b.failed.None? {
      ParkStage(w, b.fs, |b.ran|);
    }
  }

  /** With the swap-out guarded, a build that succeeds always ends with the
      built bundle back in dist/qunit.js, failing tests or not, as long as
      the copy back itself succeeds. */
  lemma GuardedRestores(w: World, fs: Fs)
    requires WellFormed(w)
    ensures var b := Run(StepOf(w), BuildTasks, fs, 0);
            var g := GuardedCoverage(w, fs);
            b.failed.None? && w.passes(SwapOut[0]) ==> Dist in g.fs && g.fs[Dist] == BuiltBundle(w, 0)
  {
    var step := StepOf(w);
    var b := Run(step, BuildTasks, fs, 0);
    var setup := Then(step, b, SwapIn[..2], 0);
    SetupParksBundle(w, fs);
    BuiltBundleClean(w, 0);
    if b.failed.None? && w.passes(SwapOut[0]) && setup.failed.None? {
      var body := Then(step, setup, SwapIn[2..] + TestTasks(Legacy(w)), 0);
      BodyKeepsParkedBundle(w, setup.fs, |setup.ran|);
      var restoreTick := |body.ran| + if body.failed.Some? then 1 else 0;
      SwapOutStage(w, body.fs, restoreTick);
      var restore := Run(step, SwapOut, body.fs, restoreTick);
      if body.failed.None? {
        PublishKeepsBundles(w, restore.fs, |body.ran + restore.ran|);
      }
    }
  }

  /** When the original run completes, the guarded one does exactly the
      same. */
  lemma GuardedAgreesOnSuccess(w: World, fs: Fs)
    ensures CoverageRun(w, fs).failed.None? ==> GuardedCoverage(w, fs) == CoverageRun(w, fs)
  {
    CoverageInStages(w, fs);
    var step := StepOf(w);
    var test := TestTasks(Legacy(w));
    var b := Run(step, BuildTasks, fs, 0);
    var bi := Then(step, b, SwapIn, 0);
    var bit := Then(step, bi, test, 0);
    var bito := Then(step, bit, SwapOut, 0);
    if Then(step, bito, Publish, 0).failed.None? {
      var setup := Then(step, b, SwapIn[..2], 0);
      var body := Then(step, setup, SwapIn[2..] + test, 0);
      SplitSwapIn(step, b, test);
      assert bit.failed.None?;
      assert setup.failed.None?;
      var restore := Run(step, SwapOut, body.fs, |body.ran|);
      assert bito == Outcome(restore.fs, body.ran + restore.ran, None);
    }
  }

  /** The guard changes no verdict: the guarded run fails exactly when
      the original one does, so a failing test still ends `grunt coverage`
      with a failure. */
  lemma GuardedReportsFailure(w: World, fs: Fs)
    ensures CoverageRun(w, fs).failed.Some? <==> GuardedCoverage(w, fs).failed.Some?
  {
    var step := StepOf(w);
    var setup := Then(step, Run(step, BuildTasks, fs, 0), SwapIn[..2], 0);
    var body := Then(step, setup, SwapIn[2..] + TestTasks(Legacy(w)), 0);
    CoverageAfterSetup(w, fs);
    if setup.failed.None? && body.failed.None? {
      var restore := Run(step, SwapOut, body.fs, |body.ran|);
      assert Then(step, body, SwapOut, 0) == Outcome(restore.fs, body.ran + restore.ran, restore.failed);
    }
  }

  /** As long as the copy back itself passes, the guarded run reports the
      same failing task as the original, a failing test included. */
  lemma GuardedSameFailure(w: World, fs: Fs)
    ensures w.passes(SwapOut[0]) ==> GuardedCoverage(w, fs).failed == CoverageRun(w, fs).failed
  {
    var step := StepOf(w);
    var setup := Then(step, Run(step, BuildTasks, fs, 0), SwapIn[..2], 0);
    var body := Then(step, setup, SwapIn[2..] + TestTasks(Legacy(w)), 0);
    CoverageAfterSetup(w, fs);
    if w.passes(SwapOut[0]) && setup.failed.None? {
      var restoreTick := |body.ran| + if body.failed.Some? then 1 else 0;
      SwapOutPasses(w, body.fs, restoreTick);
    }
  }

  /** The original run read as the guarded one splits it: setup, then the
      instrumented copy with the tests, then the copy back and publishing,
      each only after the previous part succeeded. */
  lemma CoverageAfterSetup(w: World, fs: Fs)
    ensures var step := StepOf(w);
            var setup := Then(step, Run(step, BuildTasks, fs, 0), SwapIn[..2], 0);
            var body := Then(step, setup, SwapIn[2..] + TestTasks(Legacy(w)), 0);
            CoverageRun(w, fs) == Then(step, Then(step, body, SwapOut, 0), Publish, 0)
  {
    CoverageInStages(w, fs);
    SplitSwapIn(StepOf(w), Run(StepOf(w), BuildTasks, fs, 0), TestTasks(Legacy(w)));
  }

  /** The copy back succeeds exactly when its step passes, whether or not
      there is a parked copy to bring back. */
  lemma SwapOutPasses(w: World, fs: Fs, tick: nat)
    ensures Run(StepOf(w), SwapOut, fs, tick).failed.None? <==> w.passes(SwapOut[0])
  {
    RunSingle(StepOf(w), SwapOut[0], fs, tick);
    CopyStep(w, "tmp-to-dist", fs, tick);
  }

  /** Parking, then the instrumented copy and the tests, is the swap-in
      followed by the tests. */
  lemma SplitSwapIn(step: (Task, Fs, nat) -> StepResult<Fs>, b: Outcome<Task, Fs>, test: seq<Task>)
    ensures Then(step, Then(step, b, SwapIn[..2], 0), SwapIn[2..] + test, 0) == Then(step, Then(step, b, SwapIn, 0), test, 0)
  {
    ThenThen(step, b, SwapIn, test, 0);
    ThenThen(step, b, SwapIn[..2], SwapIn[2..] + test, 0);
    assert SwapIn[..2] + (SwapIn[2..] + test) == SwapIn + test;
  }
}

=== FILE: template.dfy ===
/**
  The `process` hook every `copy` target runs its files through
  (Gruntfile.js, `process`): `@VERSION` becomes the package version and
  `@DATE` becomes the current time, as an ISO-8601 string cut down to minutes.
 */
module Template {
  import opened Wrappers
  import opened Text

  const VersionToken := "@VERSION"
  const DateToken := "@DATE"

  /** The shape of `Date.prototype.toISOString()` for years 0 to 9999;
      `d` stands for a decimal digit. */
  const IsoPattern := "dddd-dd-ddTdd:dd:dd.dddZ"

  /** The shape of the embedded date, `yyyy-mm-ddThh:mmZ`. */
  const StampPattern := "dddd-dd-ddTdd:ddZ"

  predicate IsDigit(c: char)
  {
    '0' <= c <= '9'
  }

  /** `s` has the shape `pattern`: a digit where the pattern has `d`, the
      pattern's own character everywhere else. */
  predicate Fits(s: string, pattern: string)
  {
    |s| == |pattern| &&
    forall i :: 0 <= i < |s| ==> if pattern[i] == 'd' then IsDigit(s[i]) else s[i] == pattern[i]
  }

  /** `\d+`: a non-empty run of decimal digits. */
  predicate Digits(s: string)
  {
    |s| > 0 && forall i :: 0 <= i < |s| ==> IsDigit(s[i])
  }

  /** `t` is, from end to end, a match of `:\d+\.\d+Z`. */
  predicate IsSecondsSuffix(t: string)
  {
    |t| >= 5 && t[0] == ':' && t[|t| - 1] == 'Z' &&
    exists j | 1 < j < |t| - 2 :: t[j] == '.' && Digits(t[1..j]) && Digits(t[j + 1..|t| - 1])
  }

  /** Past its leading colon a match of `:\d+\.\d+Z` holds no colon. */
  lemma SecondsSuffixHasOneColon(t: string, k: nat)
    requires IsSecondsSuffix(t) && 0 < k < |t|
    ensures t[k] != ':'
  {
    var j :| 1 < j < |t| - 2 && t[j] == '.' && Digits(t[1..j]) && Digits(t[j + 1..|t| - 1]);
    if k < j {
      assert t[k] == t[1..j][k - 1];
    } else if j < k < |t| - 1 {
      assert t[k] == t[j + 1..|t| - 1][k - j - 1];
    }
  }

  /**
    Where the regular expression `/:\d+\.\d+Z$/` first matches in `s` at or
    after position `k`: the leftmost start whose suffix is a match, as the
    `$` anchor ties every match to the end of the string.
   */
  function SecondsSuffixFrom(s: string, k: nat): (r: Option<nat>)
    requires k <= |s|
    ensures r.Some? ==> k <= r.value < |s| && IsSecondsSuffix(s[r.value..])
    ensures r.Some? ==> forall j :: k <= j < r.value ==> !IsSecondsSuffix(s[j..])
    ensures r.None? ==> forall j :: k <= j <= |s| ==> !IsSecondsSuffix(s[j..])
    decreases |s| - k
  {
    if k == |s| then None
    else if IsSecondsSuffix(s[k..]) then Some(k)
    else SecondsSuffixFrom(s, k + 1)
  }

  /**
    `iso.replace(/:\d+\.\d+Z$/, "Z")`: the seconds and fraction at the end
    of the clock reading are cut off, keeping the `Z`. A string without
    that ending comes back unchanged.
   */
  function MinutePrecision(iso: string): (r: string)
    ensures r == iso || (0 < |r| < |iso| && r[..|r| - 1] <= iso && r[|r| - 1] == 'Z')
  {
    match SecondsSuffixFrom(iso, 0)
    case Some(k) => iso[..k] + "Z"
    case None => iso
  }

  /** On a reading `YYYY-MM-DDThh:mm:ss.sssZ` the cut leaves exactly
      `YYYY-MM-DDThh:mmZ`: the first 16 characters followed by `Z`. */
  lemma MinutePrecisionOfIso(iso: string)
    requires Fits(iso, IsoPattern)
    ensures MinutePrecision(iso) == iso[..16] + "Z"
    ensures |MinutePrecision(iso)| == 17
    ensures Fits(MinutePrecision(iso), StampPattern)
  {
    var t := iso[16..];
    assert IsoPattern[16] == ':' && IsoPattern[19] == '.' && IsoPattern[23] == 'Z';
    assert iso[16] == ':' && iso[19] == '.' && iso[23] == 'Z';
    assert Digits(t[1..3]) by {
      assert IsoPattern[17] == 'd' && IsoPattern[18] == 'd';
      assert IsDigit(iso[17]) && IsDigit(iso[18]);
      assert t[1..3] == [iso[17], iso[18]];
    }
    assert Digits(t[4..7]) by {
      assert IsoPattern[20] == 'd' && IsoPattern[21] == 'd' && IsoPattern[22] == 'd';
      assert IsDigit(iso[20]) && IsDigit(iso[21]) && IsDigit(iso[22]);
      assert t[4..7] == [iso[20], iso[21], iso[22]];
    }
    assert IsSecondsSuffix(t);
    match SecondsSuffixFrom(iso, 0)
    case Some(k) =>
      if k < 16 {
        SecondsSuffixHasOneColon(iso[k..], 16 - k);
      }
      assert k == 16;
      var r := iso[..16] + "Z";
      assert StampPattern[..16] == IsoPattern[..16];
      assert forall i :: 0 <= i < 16 ==> r[i] == iso[i] && StampPattern[i] == IsoPattern[i];
    case None =>
  }

  /**
    `process( code )`: first every `@VERSION` becomes `version`, then, in a
    second pass over the result, every `@DATE` becomes the clock reading
    `now` cut down to minutes.
   */
  function Process(code: string, version: string, now: string): (r: string)
    ensures !Contains(code, VersionToken) && !Contains(code, DateToken) ==> r == code
  {
    ReplaceAll(ReplaceAll(code, VersionToken, version), DateToken, MinutePrecision(now))
  }

  /** No placeholder is left in `s`. */
  predicate Clean(s: string)
  {
    !Contains(s, VersionToken) && !Contains(s, DateToken)
  }

  /** The embedded date can neither complete nor extend a placeholder. */
  lemma StampIsInert(now: string)
    requires Fits(now, IsoPattern)
    ensures Inert(VersionToken, MinutePrecision(now))
    ensures Inert(DateToken, MinutePrecision(now))
  {
    MinutePrecisionOfIso(now);
    var d := MinutePrecision(now);
    assert '@' !in StampPattern;
    forall i | 0 <= i < |d|
      ensures d[i] != '@'
    {
      assert StampPattern[i] in StampPattern;
    }
    assert StampPattern[0] == 'd';
    assert IsDigit(d[0]);
  }

  /**
    With a version that is inert for `@VERSION` and a well-formed clock
    reading, no placeholder survives: every occurrence is replaced, not
    just the first.
   */
  lemma ProcessLeavesNoPlaceholder(code: string, version: string, now: string)
    requires Inert(VersionToken, version) && Fits(now, IsoPattern)
    ensures Clean(Process(code, version, now))
  {
    StampIsInert(now);
    var d := MinutePrecision(now);
    var v := ReplaceAll(code, VersionToken, version);
    ReplaceAllRemoves(code, VersionToken, version);
    ReplaceAllKeepsAbsent(v, DateToken, d, VersionToken);
    ReplaceAllRemoves(v, DateToken, d);
  }

  /** Under the same conditions processing twice is processing once, even
      with a different clock reading the second time. */
  lemma ProcessIdempotent(code: string, version: string, now: string, later: string)
    requires Inert(VersionToken, version) && Fits(now, IsoPattern)
    ensures Process(Process(code, version, now), version, later) == Process(code, version, now)
  {
    ProcessLeavesNoPlaceholder(code, version, now);
  }

  /**
    Wherever `@DATE` stands in otherwise placeholder-free text, processing
    puts `yyyy-mm-ddThh:mmZ` in its place and keeps the text around it
    as it was, whatever the version.
   */
  lemma ProcessEmbedsMinuteStamp(a: string, b: string, version: string, now: string)
    requires Clean(a) && Clean(b) && Fits(now, IsoPattern)
    ensures Process(a + DateToken + b, version, now) == a + now[..16] + "Z" + b
  {
    var rest := DateToken + b;
    VersionAbsentBeforeDate(b);
    AbsentAcross(a, VersionToken, rest);
    assert a + DateToken + b == a + rest;
    assert '@' !in DateToken[1..];
    ReplaceAllAfterStem(a, DateToken, b, MinutePrecision(now));
    MinutePrecisionOfIso(now);
  }

  /** `@DATE` followed by text free of `@VERSION` does not hold it. */
  lemma VersionAbsentBeforeDate(b: string)
    requires !Contains(b, VersionToken)
    ensures !Contains(DateToken + b, VersionToken)
    ensures '@' !in VersionToken[1..]
  {
    var rest := DateToken + b;
    assert '@' !in VersionToken[1..];
    assert rest[1..] == "DATE" + b;
    ContainsAfter("DATE", b, VersionToken);
    assert rest[1] != VersionToken[1];
  }

  /** `version` not holding `@VERSION` is not enough for the output to be
      free of it: the replacement can complete a token with the text before
      it. */
  lemma VersionFreeOfTokenIsNotEnough()
    ensures !Contains("VERSION", VersionToken)
    ensures Contains(ReplaceAll("@@VERSION", VersionToken, "VERSION"), VersionToken)
  {
    assert ReplaceAll("@@VERSION", VersionToken, "VERSION") == "@VERSION";
  }

  /** The two replacements are separate passes: a version that holds
      `@DATE` has it replaced by the date in turn. */
  lemma SecondPassSeesVersion(now: string)
    requires Fits(now, IsoPattern)
    ensures Process(VersionToken, DateToken, now) == now[..16] + "Z"
  {
    MinutePrecisionOfIso(now);
    assert ReplaceAll(VersionToken, VersionToken, DateToken) == DateToken;
  }
}

=== FILE: text.dfy ===
/**
  String primitives the build configuration relies on, on `seq<char>`:
  substring search, JavaScript's `String.prototype.replace` with a literal
  token (all occurrences for a `/g` pattern, the first one for a string
  pattern), `String.prototype.split` with a string separator, and
  `Array.prototype.join`.
 */
module Text {

  /** `tok` occurs in `s` at some position. */
  predicate Contains(s: string, tok: string)
    decreases |s|
  {
    tok <= s || (|s| > 0 && Contains(s[1..], tok))
  }

  /** An occurrence in a suffix is an occurrence in the whole string. */
  lemma {:induction false} ContainsSuffix(s: string, tok: string, k: nat)
    requires k <= |s|
    ensures Contains(s[k..], tok) ==> Contains(s, tok)
    decreases k
  {
    if k > 0 {
      assert s[k..] == s[1..][k - 1..];
      ContainsSuffix(s[1..], tok, k - 1);
    }
  }

  /** `tok` occurring at position `k` of `s` means `s` contains it. */
  lemma ContainsAt(s: string, tok: string, k: nat)
    requires k <= |s| && tok <= s[k..]
    ensures Contains(s, tok)
  {
    ContainsSuffix(s, tok, k);
  }

  /** Text that does not hold the first character of `tok` cannot hide
      an occurrence of `tok`, not even one reaching into what follows. */
  lemma {:induction false} ContainsAfter(pre: string, s: string, tok: string)
    requires tok != [] && tok[0] !in pre
    ensures Contains(pre + s, tok) <==> Contains(s, tok)
    decreases |pre|
  {
    if pre == [] {
      assert pre + s == s;
    } else {
      assert (pre + s)[1..] == pre[1..] + s;
      assert !(tok <= pre + s);
      ContainsAfter(pre[1..], s, tok);
    }
  }

  /**
    `s.replace(/tok/g, rep)` for a token without regular-expression
    metacharacters: a single left-to-right scan that replaces every
    non-overlapping occurrence of `tok` by `rep`; the inserted text is not
    scanned again.
   */
  function ReplaceAll(s: string, tok: string, rep: string): (r: string)
    requires tok != []
    ensures !Contains(s, tok) ==> r == s
    decreases |s|
  {
    if |s| == 0 then []
    else if tok <= s then rep + ReplaceAll(s[|tok|..], tok, rep)
    else [s[0]] + ReplaceAll(s[1..], tok, rep)
  }

  /**
    `rep` can neither complete nor continue an occurrence of `tok` around
    it: it is non-empty, it avoids `tok`'s first character, and its own first
    character does not occur in `tok`.
   */
  predicate Inert(tok: string, rep: string)
  {
    |tok| > 0 && |rep| > 0 && tok[0] !in rep && rep[0] !in tok
  }

  /** A word that avoids the first character of an inserted replacement and
      begins the replaced text already began the original text. */
  lemma {:induction false} PrefixThroughReplace(w: string, s: string, tok: string, rep: string)
    requires tok != [] && |rep| > 0 && rep[0] !in w
    ensures w <= ReplaceAll(s, tok, rep) ==> w <= s
    decreases |s|
  {
    var r := ReplaceAll(s, tok, rep);
    if w == [] || |s| == 0 {
    } else if tok <= s {
      assert r == rep + ReplaceAll(s[|tok|..], tok, rep);
      assert r[0] == rep[0];
      assert w[0] in w;
    } else {
      var x := ReplaceAll(s[1..], tok, rep);
      assert r == [s[0]] + x;
      assert forall c :: c in w[1..] ==> c in w;
      PrefixThroughReplace(w[1..], s[1..], tok, rep);
      assert w <= r ==> w[0] == s[0] && w[1..] <= x;
      assert w == [w[0]] + w[1..];
      assert s == [s[0]] + s[1..];
    }
  }

  /** Replacing every occurrence of `tok` by an inert replacement leaves
      no occurrence of `tok`, including none formed across a boundary. */
  lemma {:induction false} ReplaceAllRemoves(s: string, tok: string, rep: string)
    requires Inert(tok, rep)
    ensures !Contains(ReplaceAll(s, tok, rep), tok)
    decreases |s|
  {
    var r := ReplaceAll(s, tok, rep);
    if |s| == 0 {
    } else if tok <= s {
      var x := ReplaceAll(s[|tok|..], tok, rep);
      ReplaceAllRemoves(s[|tok|..], tok, rep);
      ContainsAfter(rep, x, tok);
    } else {
      var x := ReplaceAll(s[1..], tok, rep);
      assert r == [s[0]] + x;
      assert r[1..] == x;
      ReplaceAllRemoves(s[1..], tok, rep);
      assert tok <= r ==> tok[0] == s[0] && tok[1..] <= x;
      assert forall c :: c in tok[1..] ==> c in tok;
      PrefixThroughReplace(tok[1..], s[1..], tok, rep);
      assert tok == [tok[0]] + tok[1..];
      assert s == [s[0]] + s[1..];
    }
  }

  /** Replacing one token by text inert for another token `a` never
      creates an occurrence of `a`. */
  lemma {:induction false} ReplaceAllKeepsAbsent(s: string, tok: string, rep: string, a: string)
    requires tok != [] && Inert(a, rep) && !Contains(s, a)
    ensures !Contains(ReplaceAll(s, tok, rep), a)
    decreases |s|
  {
    var r := ReplaceAll(s, tok, rep);
    if |s| == 0 {
    } else if tok <= s {
      var x := ReplaceAll(s[|tok|..], tok, rep);
      ContainsSuffix(s, a, |tok|);
      ReplaceAllKeepsAbsent(s[|tok|..], tok, rep, a);
      ContainsAfter(rep, x, a);
    } else {
      var x := ReplaceAll(s[1..], tok, rep);
      assert r == [s[0]] + x;
      assert r[1..] == x;
      ContainsSuffix(s, a, 1);
      ReplaceAllKeepsAbsent(s[1..], tok, rep, a);
      assert a <= r ==> a[0] == s[0] && a[1..] <= x;
      assert forall c :: c in a[1..] ==> c in a;
      PrefixThroughReplace(a[1..], s[1..], tok, rep);
      assert a == [a[0]] + a[1..];
      assert s == [s[0]] + s[1..];
    }
  }

  /**
    `s.replace(tok, rep)` with a string pattern: only the leftmost
    occurrence of `tok` is replaced, and `tok` is matched literally.
   */
  function ReplaceFirst(s: string, tok: string, rep: string): (r: string)
    requires tok != []
    ensures !Contains(s, tok) ==> r == s
    decreases |s|
  {
    if |s| == 0 then []
    else if tok <= s then rep + s[|tok|..]
    else [s[0]] + ReplaceFirst(s[1..], tok, rep)
  }

  /** For a token whose first character does not recur in it, the first
      occurrence after a stretch free of the token is the one replaced. */
  lemma {:induction false} ReplaceFirstAfter(stem: string, tok: string, post: string, rep: string)
    requires tok != [] && tok[0] !in tok[1..] && !Contains(stem, tok)
    ensures ReplaceFirst(stem + tok + post, tok, rep) == stem + rep + post
    decreases |stem|
  {
    var s := stem + tok + post;
    if stem == [] {
      assert s == tok + post;
      assert s[|tok|..] == post;
    } else {
      TokenNotAtStart(stem, tok, post);
      HeadOfThree(stem, tok, post);
      ContainsSuffix(stem, tok, 1);
      ReplaceFirstAfter(stem[1..], tok, post, rep);
      HeadOfThree(stem, rep, post);
    }
  }

  /** Splitting off the head of a three-part string. */
  lemma HeadOfThree(x: string, y: string, z: string)
    requires |x| > 0
    ensures (x + y + z)[0] == x[0] && (x + y + z)[1..] == x[1..] + y + z
    ensures [x[0]] + (x[1..] + y + z) == x + y + z
  {
  }

  /** A token whose first character does not recur in it does not start
      at a non-empty stretch free of it followed by the token. */
  lemma TokenNotAtStart(stem: string, tok: string, post: string)
    requires tok != [] && tok[0] !in tok[1..] && !Contains(stem, tok) && stem != []
    ensures !(tok <= stem + tok + post)
  {
    assert stem + tok + post == stem + (tok + post);
    TokenNotBeforeStart(stem, tok, tok + post);
  }

  /** Nor does it start in such a stretch when the token's first character
      follows the stretch. */
  lemma TokenNotBeforeStart(stem: string, tok: string, rest: string)
    requires tok != [] && tok[0] !in tok[1..] && !Contains(stem, tok) && stem != []
    requires |rest| > 0 && rest[0] == tok[0]
    ensures !(tok <= stem + rest)
  {
    var s := stem + rest;
    assert !(tok <= stem);
    if |stem| >= |tok| {
      assert s[..|tok|] == stem[..|tok|];
    } else {
      assert s[|stem|] == tok[0];
      assert tok[|stem|] == tok[1..][|stem| - 1];
      assert tok[1..][|stem| - 1] in tok[1..];
    }
  }

  /** A token whose first character does not recur in it is absent from
      the join of two texts that lack it when the second one starts with
      that character: no occurrence straddles the seam. */
  lemma {:induction false} AbsentAcross(a: string, tok: string, rest: string)
    requires tok != [] && tok[0] !in tok[1..] && !Contains(a, tok) && !Contains(rest, tok)
    requires |rest| > 0 && rest[0] == tok[0]
    ensures !Contains(a + rest, tok)
    decreases |a|
  {
    if a == [] {
      assert a + rest == rest;
    } else {
      TokenNotBeforeStart(a, tok, rest);
      assert (a + rest)[1..] == a[1..] + rest;
      ContainsSuffix(a, tok, 1);
      AbsentAcross(a[1..], tok, rest);
    }
  }

  /** Behind a stretch free of a token whose first character does not
      recur in it, the global replace keeps the stretch, replaces the
      token, and goes on with the rest. */
  lemma {:induction false} ReplaceAllAfterStem(stem: string, tok: string, post: string, rep: string)
    requires tok != [] && tok[0] !in tok[1..] && !Contains(stem, tok)
    ensures ReplaceAll(stem + tok + post, tok, rep) == stem + rep + ReplaceAll(post, tok, rep)
    decreases |stem|
  {
    var s := stem + tok + post;
    if stem == [] {
      assert s == tok + post;
      assert s[|tok|..] == post;
    } else {
      TokenNotAtStart(stem, tok, post);
      HeadOfThree(stem, tok, post);
      ContainsSuffix(stem, tok, 1);
      ReplaceAllAfterStem(stem[1..], tok, post, rep);
      HeadOfThree(stem, rep, ReplaceAll(post, tok, rep));
    }
  }

  /**
    `s.split(sep)` for a non-empty string separator: the pieces between the
    non-overlapping occurrences of `sep` found by a left-to-right scan.
    There is always at least one piece, and no piece holds `sep`.
   */
  function SplitOn(s: string, sep: string): (parts: seq<string>)
    requires sep != []
    ensures |parts| >= 1
    ensures parts[0] <= s
    ensures forall i :: 0 <= i < |parts| ==> !Contains(parts[i], sep)
    ensures !Contains(s, sep) ==> parts == [s]
    ensures Contains(s, sep) ==> |parts| >= 2
    decreases |s|
  {
    if |s| == 0 then [[]]
    else if sep <= s then [[]] + SplitOn(s[|sep|..], sep)
    else
      var rest := SplitOn(s[1..], sep);
      assert s == [s[0]] + s[1..];
      assert !Contains([s[0]] + rest[0], sep) by {
        assert ([s[0]] + rest[0])[1..] == rest[0];
        assert [s[0]] + rest[0] <= s;
        assert sep <= [s[0]] + rest[0] ==> sep <= s;
      }
      [[s[0]] + rest[0]] + rest[1..]
  }

  /** `parts.join(sep)`: the pieces with `sep` between neighbours. */
  function Join(parts: seq<string>, sep: string): string
  {
    if |parts| == 0 then []
    else if |parts| == 1 then parts[0]
    else parts[0] + sep + Join(parts[1..], sep)
  }

  /** A piece put in front is followed by one separator. */
  lemma JoinCons(a: string, parts: seq<string>, sep: string)
    requires |parts| >= 1
    ensures Join([a] + parts, sep) == a + sep + Join(parts, sep)
  {
    assert ([a] + parts)[1..] == parts;
  }

  /** A character put in front of the first piece is in front of the join. */
  lemma JoinHead(c: char, parts: seq<string>, sep: string)
    requires |parts| >= 1
    ensures Join([[c] + parts[0]] + parts[1..], sep) == [c] + Join(parts, sep)
  {
    var q := [[c] + parts[0]] + parts[1..];
    assert q[1..] == parts[1..];
    if |parts| > 1 {
      assert Join(q, sep) == ([c] + parts[0]) + sep + Join(parts[1..], sep);
    }
  }

  /** The last piece is appended after a final separator. */
  lemma {:induction false} JoinSnoc(parts: seq<string>, sep: string)
    requires |parts| >= 2
    ensures Join(parts, sep) == Join(parts[..|parts| - 1], sep) + sep + parts[|parts| - 1]
    decreases |parts|
  {
    if |parts| > 2 {
      JoinSnoc(parts[1..], sep);
      assert parts[1..][..|parts| - 2] == parts[..|parts| - 1][1..];
    } else {
      assert parts[..1] == [parts[0]];
    }
  }

  /** Joining the pieces of a split with the same separator gives back the
      original string. */
  lemma {:induction false} JoinSplit(s: string, sep: string)
    requires sep != []
    ensures Join(SplitOn(s, sep), sep) == s
    decreases |s|
  {
    if |s| == 0 {
    } else if sep <= s {
      JoinSplit(s[|sep|..], sep);
      JoinAfterSep(s, sep, SplitOn(s[|sep|..], sep));
    } else {
      JoinSplit(s[1..], sep);
      JoinAfterChar(s, sep, SplitOn(s[1..], sep));
    }
  }

  /** Re-joining after a leading separator. */
  lemma JoinAfterSep(s: string, sep: string, p: seq<string>)
    requires sep <= s && |p| >= 1 && Join(p, sep) == s[|sep|..]
    ensures Join([[]] + p, sep) == s
  {
    JoinCons([], p, sep);
    PrefixThenRest(sep, s);
  }

  /** A string that starts with `w` is `w` followed by the rest. */
  lemma PrefixThenRest(w: string, s: string)
    requires w <= s
    ensures [] + w + s[|w|..] == s
  {
    assert s[..|w|] == w;
    assert s == s[..|w|] + s[|w|..];
  }

  /** Re-joining after a leading character that starts no separator. */
  lemma JoinAfterChar(s: string, sep: string, p: seq<string>)
    requires |s| > 0 && |p| >= 1 && Join(p, sep) == s[1..]
    ensures Join([[s[0]] + p[0]] + p[1..], sep) == s
  {
    JoinHead(s[0], p, sep);
    assert s == [s[0]] + s[1..];
  }

  /** The global replace is a split at the token re-joined with the
      replacement: every occurrence becomes `rep` and the text between
      occurrences is kept as it was. */
  lemma {:induction false} ReplaceAllIsSplitJoin(s: string, tok: string, rep: string)
    requires tok != []
    ensures ReplaceAll(s, tok, rep) == Join(SplitOn(s, tok), rep)
    decreases |s|
  {
    if |s| == 0 {
    } else if tok <= s {
      var p := SplitOn(s[|tok|..], tok);
      assert SplitOn(s, tok) == [[]] + p;
      ReplaceAllIsSplitJoin(s[|tok|..], tok, rep);
      JoinCons([], p, rep);
      assert [] + rep + Join(p, rep) == rep + Join(p, rep);
    } else {
      var p := SplitOn(s[1..], tok);
      assert SplitOn(s, tok) == [[s[0]] + p[0]] + p[1..];
      ReplaceAllIsSplitJoin(s[1..], tok, rep);
      JoinHead(s[0], p, rep);
    }
  }

  /** A separator-free head followed by more text ends up glued to the first
      piece of that text. */
  lemma {:induction false} SplitOnHead(x: string, y: string, c: char)
    requires c !in x
    ensures SplitOn(x + y, [c]) == [x + SplitOn(y, [c])[0]] + SplitOn(y, [c])[1..]
    decreases |x|
  {
    var p := SplitOn(y, [c]);
    if x == [] {
      assert x + y == y;
      assert x + p[0] == p[0];
      assert p == [p[0]] + p[1..];
    } else {
      var z := x + y;
      assert z[0] == x[0] && x[0] in x;
      assert z[1..] == x[1..] + y;
      SplitOnChar(z, [c]);
      SplitOnHead(x[1..], y, c);
      var q := SplitOn(z[1..], [c]);
      assert q[0] == x[1..] + p[0] && q[1..] == p[1..];
      assert [x[0]] + (x[1..] + p[0]) == x + p[0];
    }
  }

  /** One step of a split at a character that starts no separator. */
  lemma SplitOnChar(s: string, sep: string)
    requires sep != [] && |s| > 0 && s[0] != sep[0]
    ensures var q := SplitOn(s[1..], sep);
            SplitOn(s, sep) == [[s[0]] + q[0]] + q[1..]
  {
  }

  /** Splitting a join of separator-free pieces on a one-character
      separator gives back the pieces. */
  lemma {:induction false} SplitJoin(parts: seq<string>, c: char)
    requires |parts| >= 1
    requires forall i :: 0 <= i < |parts| ==> c !in parts[i]
    ensures SplitOn(Join(parts, [c]), [c]) == parts
    decreases |parts|
  {
    if |parts| == 1 {
      SplitOnHead(parts[0], [], c);
      assert parts[0] + [] == parts[0];
    } else {
      var tail := Join(parts[1..], [c]);
      SplitJoin(parts[1..], c);
      assert Join(parts, [c]) == parts[0] + ([c] + tail);
      SplitOnHead(parts[0], [c] + tail, c);
      assert ([c] + tail)[1..] == tail;
      assert SplitOn([c] + tail, [c]) == [[]] + parts[1..];
      assert parts[0] + [] == parts[0];
    }
  }

  /** No occurrence of `sep` in `a + b` begins inside `a` and runs on
      into `b`. */
  predicate NoStraddle(a: string, b: string, sep: string)
  {
    forall k :: 0 <= k < |a| && sep <= (a + b)[k..] ==> k + |sep| <= |a|
  }

  /** The piece `s.split(sep).pop()` returns. */
  function LastPiece(s: string, sep: string): string
    requires sep != []
  {
    var parts := SplitOn(s, sep);
    parts[|parts| - 1]
  }

  /** A separator at the front does not change the last piece. */
  lemma LastPieceAfterSep(s: string, sep: string)
    requires sep != [] && sep <= s
    ensures LastPiece(s, sep) == LastPiece(s[|sep|..], sep)
  {
    var p := SplitOn(s[|sep|..], sep);
    assert SplitOn(s, sep) == [[]] + p;
  }

  /** Neither does a leading character, while a separator follows it. */
  lemma LastPieceAfterChar(s: string, sep: string)
    requires sep != [] && |s| > 0 && !(sep <= s) && Contains(s[1..], sep)
    ensures LastPiece(s, sep) == LastPiece(s[1..], sep)
  {
    var p := SplitOn(s[1..], sep);
    assert SplitOn(s, sep) == [[s[0]] + p[0]] + p[1..];
  }

  /** If `b` holds a separator and none straddles the border, the last
      piece of `a + b` is the last piece of `b`. */
  lemma {:induction false} LastPieceOfSuffix(a: string, b: string, sep: string)
    requires sep != [] && Contains(b, sep) && NoStraddle(a, b, sep)
    ensures LastPiece(a + b, sep) == LastPiece(b, sep)
    decreases |a|
  {
    var s := a + b;
    if a == [] {
      assert s == b;
    } else if sep <= s {
      assert s[0..] == s;
      assert |sep| <= |a|;
      var a' := a[|sep|..];
      assert s[|sep|..] == a' + b;
      forall k | 0 <= k < |a'| && sep <= (a' + b)[k..]
        ensures k + |sep| <= |a'|
      {
        assert (a' + b)[k..] == s[k + |sep|..];
      }
      LastPieceAfterSep(s, sep);
      LastPieceOfSuffix(a', b, sep);
    } else {
      var a' := a[1..];
      assert s[1..] == a' + b;
      forall k | 0 <= k < |a'| && sep <= (a' + b)[k..]
        ensures k + |sep| <= |a'|
      {
        assert (a' + b)[k..] == s[k + 1..];
      }
      assert (a' + b)[|a'|..] == b;
      ContainsSuffix(a' + b, sep, |a'|);
      LastPieceAfterChar(s, sep);
      LastPieceOfSuffix(a', b, sep);
    }
  }
}

=== FILE: wrappers.dfy ===
/** Optional values, used where the modelled code may find nothing. */
module Wrappers {

  datatype Option<+T> = None | Some(value: T)
}
